=== FILE: README.md ===
# Conversation search — a Dafny model

This project models the pure core of `search_history.py`, a script that
searches recorded assistant-conversation sessions. A session is one file of
newline-delimited JSON records. The script turns each file into a
`Conversation` and then does three things with it:

- scores it against a free-text query by bag-of-words overlap;
- filters it by date;
- derives excerpts from it: the problem, the solution, the shell commands
  run, the files touched and topic tags.

It then either ranks the conversations (search) or lists one day's sessions
in timestamp order (digest). Everything is modelled as immutable datatypes
and pure functions over `seq`. The file system, the clock and JSON decoding
become inputs.

Modules, leaf first:

| file | module | what it holds |
|---|---|---|
| wrappers.dfy | `Wrappers` | `Option`, `Result` |
| strings.dfy | `Strings` | `startswith`, `replace`, `strip`, `lower`, `'\n'.join` and `split`, Python's string order |
| sorting.dfy | `Sorting` | stable insertion sort over a total preorder; `sorted(set(xs))[:n]`; Python slicing `s[:n]` |
| project_path.dfy | `ProjectPath` | the lossy project-directory codec |
| content.dfy | `Content` | message payloads and the three extractors |
| sessions.dfy | `Sessions` | records, messages, conversations, and the record fold of `parse_conversation_file` |
| tokenizer.dfy | `Tokenizer` | `tokenize` |
| scoring.dfy | `Scoring` | `calculate_relevance_score` |
| dates.dfy | `Dates` | `parse_timestamp`, `get_date_filter`, `conversation_in_date_range` |
| excerpts.dfy | `Excerpts` | commands, files touched, problem and solution excerpts, topics |
| search.dfy | `Search` | the tails of `search_conversations` and `get_conversations_for_date` |

Where the code differs from the documented behaviour of the script, the model follows the code:

- **gitBranch and timestamp.** The conversation takes the first non-null
  `gitBranch` and the first non-null `timestamp`, and only from user or
  assistant records. Summary records never contribute. A record whose
  timestamp is JSON null does not fix the timestamp: a later record's value
  wins. A missing key reads as `''`, and that does fix it.
- **Lost files.** Some records lose the whole file instead of being
  skipped, because something raises inside the file-level `try` and its
  handler returns nothing:
  - a line that decodes to something other than a JSON object;
  - a user/assistant record whose `message` is not an object, on which
    `.get` raises;
  - a text or thinking block, or a text item of a tool result, whose text
    is JSON null or another non-string, on which `'\n'.join` raises.

  The model has the first two as records that raise. It does not have the
  third (see "Left out").
- **Empty problem excerpt.** The problem excerpt tests that the content is
  non-empty before stripping it. A user message made only of white space
  therefore gives the excerpt `''`.
- **Zero `--days`.** `--days 0` is falsy, so it is ignored and the next flag
  (`--since`) is tried.
- **Limit.** `--limit` is applied by Python slicing. A negative limit drops
  results from the end, and a zero limit returns nothing.
- **Time zones.** A timestamp loses everything from its first `+` and then
  from its first `Z`. A negative UTC offset is only cut off by the
  fixed-width slice. So a short fraction followed by `-hh:mm` does not parse:
  `…00.123-05:00` is read as `…00.123-05`, which is rejected.

## Model

| member | source | states |
|---|---|---|
| ProjectPath.EncodeProjectPath | plugins/conversation-search/skills/scripts/search_history.py:75-79 | the encoded name starts with `-`, contains no `/`, and is one longer than the path without its leading `/` |
| ProjectPath.DecodeEncode | plugins/conversation-search/skills/scripts/search_history.py:68-79 | decoding an encoding gives the absolute path with every `-` read as `/`; an absolute path round-trips exactly when it has no `-` |
| ProjectPath.DecodeProjectPath | plugins/conversation-search/skills/scripts/search_history.py:68-79 | a decoded name holds no `-`, one with a leading `-` decodes to an absolute path, and an encoded name (leading `-`, no `/`) is reproduced by encoding its decoding |
| Content.ExtractTextContentShape | plugins/conversation-search/skills/scripts/search_history.py:105-120 | a string payload is returned unchanged, a non-list non-string gives `''`, a block list gives its text and thinking pieces joined by newlines, and these pieces can be split back out in order |
| Content.ExtractToolUses | plugins/conversation-search/skills/scripts/search_history.py:123-132 | a payload that is not a block list has no tool uses |
| Content.ExtractToolResults | plugins/conversation-search/skills/scripts/search_history.py:135-153 | a payload that is not a block list has no tool results |
| Content.ExtractorsFollowBlockOrder | plugins/conversation-search/skills/scripts/search_history.py:110-153 | each extractor maps `a + b` to the extraction of `a` followed by that of `b`, so outputs follow block order |
| Content.SingleBlock | plugins/conversation-search/skills/scripts/search_history.py:112-152 | what one block contributes: text/thinking to the text, a tool-use block its name and input, a tool-result block its string or its joined text items, and nothing for anything else |
| Strings.Strip | plugins/conversation-search/skills/scripts/search_history.py:365 | the stripped text is a contiguous piece of the text with only white space before and after it, and it neither starts nor ends with white space |
| Strings.SplitJoinLines | plugins/conversation-search/skills/scripts/search_history.py:118 | splitting a newline-join of newline-free pieces gives the pieces back |
| Strings.JoinSplitLines | plugins/conversation-search/skills/scripts/search_history.py:118 | joining the pieces of a split gives the text back |
| Sessions.ParseConversationFile | plugins/conversation-search/skills/scripts/search_history.py:216-280 | nothing exactly when a record raises or no user/assistant record exists; otherwise messages are those records in file order, summary the last summary value, branch and timestamp the first non-null ones (timestamp `''` if none), session id the file stem and project the decoded directory name |
| Sessions.FoldMeetsExpected | plugins/conversation-search/skills/scripts/search_history.py:225-267 | the record-by-record fold agrees with the record-wise definitions on every file |
| Sessions.IgnoredRecordChangesNothing | plugins/conversation-search/skills/scripts/search_history.py:228-242 | a blank, undecodable or other-type line inserted anywhere changes nothing, so it never costs the conversation a message |
| Sessions.FirstSome | plugins/conversation-search/skills/scripts/search_history.py:244-249 | the first non-null value is returned when one exists, and None exactly when all are null |
| Sessions.LastSummary | plugins/conversation-search/skills/scripts/search_history.py:237-239 | the value of the last summary record, or None when no summary record exists |
| Sessions.Stem | plugins/conversation-search/skills/scripts/search_history.py:220 | the session id is the file name with exactly its last `.suffix` removed: either the whole name, or a non-empty prefix followed by a `.` and a final part that holds no `.` |
| Tokenizer.Tokenize | plugins/conversation-search/skills/scripts/search_history.py:283-285 | every token is non-empty, made of word characters and free of upper case; the empty text has no tokens |
| Tokenizer.TokenizeIsMaximalRuns | plugins/conversation-search/skills/scripts/search_history.py:283-285 | a string is a token exactly when it is a maximal run of word characters of the lower-cased text |
| Tokenizer.WordsAreRuns | plugins/conversation-search/skills/scripts/search_history.py:285 | every word the scan finds is a maximal word run |
| Tokenizer.RunsAreWords | plugins/conversation-search/skills/scripts/search_history.py:285 | every maximal word run is found by the scan |
| Scoring.Overlap | plugins/conversation-search/skills/scripts/search_history.py:300-306 | the overlap never exceeds the number of query tokens |
| Scoring.MessageScore | plugins/conversation-search/skills/scripts/search_history.py:308-319 | a message's weight lies in [0, 1.5·1.3] and is positive exactly when it shares a token with the query |
| Scoring.ScoreLoopSums | plugins/conversation-search/skills/scripts/search_history.py:303-322 | the accumulating loop adds the sum of message weights to the running score and appends exactly the overlapping messages, in order |
| Scoring.MessagesScoreBounds | plugins/conversation-search/skills/scripts/search_history.py:303-322 | the message weights sum to a value in [0, 1.95·n], positive exactly when some message matched |
| Scoring.CalculateRelevanceScore | plugins/conversation-search/skills/scripts/search_history.py:288-322 | an empty query token set gives (0, []); otherwise the score is the summary term plus the message weights, the matched list is the in-order overlapping messages, the score is at least 0 and at most 3 + 1.95·n, and it is positive exactly when the summary or some message shares a token |
| Scoring.MatchedMembers | plugins/conversation-search/skills/scripts/search_history.py:304-320 | a message is matched exactly when it is in the conversation and shares a token with the query |
| Dates.ParseDate | plugins/conversation-search/skills/scripts/search_history.py:168 | a parsed date comes from exactly ten characters and is a valid day ordinal; `ParseDateText` and `ParseDateSound` state which texts parse |
| Dates.ParseDateTime | plugins/conversation-search/skills/scripts/search_history.py:167 | a parsed `YYYY-MM-DDTHH:MM:SS` instant lies within the day its date part names; `ParseDateTimeText` states that every well-formed text parses |
| Dates.ParseDateTimeFraction | plugins/conversation-search/skills/scripts/search_history.py:166 | a parsed instant with fractional seconds lies within the day its date part names; `JoinFraction` and `TimestampFraction` state that every well-formed text parses |
| Dates.ParseDateAndTime | plugins/conversation-search/skills/scripts/search_history.py:162-167 | with a `T`, whatever parses (from 26 or 19 characters) lies within the day named by its first ten characters |
| Dates.ReadsFractionPrefix | plugins/conversation-search/skills/scripts/search_history.py:165-166 | once the zone is cut, a timestamp that still holds a `.` is read with fractional seconds from its first 26 characters |
| Dates.ReadsWholePrefix | plugins/conversation-search/skills/scripts/search_history.py:165-167 | one without a `.` is read in whole seconds from its first 19 characters |
| Dates.ParseTimestamp | plugins/conversation-search/skills/scripts/search_history.py:156-170 | the empty timestamp parses to nothing; any parsed instant falls on the day its first ten characters name |
| Dates.ParseDateText | plugins/conversation-search/skills/scripts/search_history.py:168 | every existing day from 0001-01-01 to 9999-12-31, written zero-padded as `YYYY-MM-DD`, parses, and to its ordinal |
| Dates.ParseDateSound | plugins/conversation-search/skills/scripts/search_history.py:168 | conversely, whatever parses as a date is the zero-padded `YYYY-MM-DD` text of an existing day, and parses to that day's ordinal |
| Dates.ParseClockText | plugins/conversation-search/skills/scripts/search_history.py:167 | every clock reading 00:00:00 through 23:59:59, written `HH:MM:SS`, parses to its microseconds after midnight |
| Dates.ParseFractionText | plugins/conversation-search/skills/scripts/search_history.py:166 | one to six fraction digits parse, read as the leading digits of the microseconds (`5` is 500000 µs) |
| Dates.ParseDateTimeText | plugins/conversation-search/skills/scripts/search_history.py:167 | a valid date, `T` and a valid clock reading parse to that day's midnight plus the clock reading |
| Dates.JoinFraction | plugins/conversation-search/skills/scripts/search_history.py:166 | a date and time followed by `.` and fraction digits parses whenever both parts parse, to the instant plus the fraction; with `ParseDateTimeText` and `ParseFractionText` every well-formed text parses |
| Dates.TimestampDropsZone | plugins/conversation-search/skills/scripts/search_history.py:162-164 | for a timestamp with a `T` and no `+` or `Z`, appending a zone suffix (from a `+` or a `Z` on) does not change the parse |
| Dates.TimestampWhole | plugins/conversation-search/skills/scripts/search_history.py:162-167 | a whole-second timestamp parses to its instant, with or without a zone suffix, and with any text lacking `.`, `+` and `Z` after the seconds (such as `-05:00`), which the 19-character slice drops |
| Dates.TimestampFraction | plugins/conversation-search/skills/scripts/search_history.py:162-166 | a date and time that parses, then `.`, fraction digits that parse, further digits only after the sixth (the 26-character slice drops them) and an optional zone suffix parse to the instant plus the fraction |
| Dates.DateTimeTextParts | plugins/conversation-search/skills/scripts/search_history.py:162-167 | a valid date and clock reading written as `YYYY-MM-DDTHH:MM:SS` parse to that instant and hold a `T` at index 10 and no `+` or `Z`, so `TimestampFraction` applies to them |
| Dates.TimestampDateOnly | plugins/conversation-search/skills/scripts/search_history.py:168 | a timestamp without a `T` that starts with a valid `YYYY-MM-DD` parses to that day's midnight |
| Dates.GetDateFilter | plugins/conversation-search/skills/scripts/search_history.py:173-199 | precedence today > yesterday > days > since; today and yesterday span one day, `--days N` the N days ending today, `--since D` D through today; an unreadable since date is an error; a span datetime cannot hold (a first day before 0001-01-01 or after 9999-12-31, or an end midnight after 9999-12-31) is an overflow error; no flag gives no filter |
| Dates.ConversationInDateRange | plugins/conversation-search/skills/scripts/search_history.py:202-213 | with no filter every conversation is admitted; an unparsable timestamp is rejected by any filter |
| Dates.DaySpanAdmits | plugins/conversation-search/skills/scripts/search_history.py:202-213 | a span of days admits exactly the conversations whose timestamp parses to an instant on one of those days |
| Dates.DayBounds | plugins/conversation-search/skills/scripts/search_history.py:213 | the half-open instant interval of days lo..hi contains exactly the instants whose day is between lo and hi |
| Dates.DaysFilterExample | plugins/conversation-search/skills/scripts/search_history.py:186-188 | `--days 7` spans the seven days ending today; `--days -3000000` puts the first day past 9999-12-31 and overflows |
| Dates.TodayFilterExample | plugins/conversation-search/skills/scripts/search_history.py:178-181 | the today filter spans exactly today: it admits a conversation stamped at an instant of today and rejects one stamped 25 hours before that instant; on 9999-12-31 it overflows |
| Excerpts.ExtractBashCommands | plugins/conversation-search/skills/scripts/search_history.py:325-334 | every command returned is non-empty |
| Excerpts.BashCommandsMembers | plugins/conversation-search/skills/scripts/search_history.py:325-334 | a string is listed exactly when it is non-empty and some message ran it through a Bash tool use |
| Excerpts.BashCommandsAppend | plugins/conversation-search/skills/scripts/search_history.py:328-333 | commands follow message order |
| Excerpts.ExtractFilesTouched | plugins/conversation-search/skills/scripts/search_history.py:337-355 | at most ten entries, strictly increasing (so no duplicates), each touched by the conversation; a touched entry left out exceeds every entry kept, and then ten are kept |
| Excerpts.FirstProblem | plugins/conversation-search/skills/scripts/search_history.py:363-371 | the position of the first user message at or after a start position whose content is non-empty and whose stripped text does not start with `[` or `{`, with none before it; nothing exactly when no such message exists |
| Excerpts.ExtractProblemExcerpt | plugins/conversation-search/skills/scripts/search_history.py:358-373 | a non-empty summary is returned as is; otherwise at most 203 characters, from the first qualifying user message, or the placeholder when none qualifies |
| Excerpts.Excerpt | plugins/conversation-search/skills/scripts/search_history.py:371-382 | the stripped content when it has at most n characters, otherwise its first n characters followed by `...` |
| Excerpts.LastSolution | plugins/conversation-search/skills/scripts/search_history.py:378-383 | the index of the last assistant message with content, or nothing exactly when there is none |
| Excerpts.ExtractSolutionExcerpt | plugins/conversation-search/skills/scripts/search_history.py:376-384 | at most 303 characters, from the last assistant message with content among the matched ones, or the placeholder |
| Excerpts.QuotedTerms | plugins/conversation-search/skills/scripts/search_history.py:397 | every quoted term is non-empty, holds no double quote, and stands in the text between two double quotes |
| Excerpts.QuotedTermsFindsPair | plugins/conversation-search/skills/scripts/search_history.py:397 | a quoted term after quote-free text is found, and the scan goes on after its closing quote |
| Excerpts.FirstUser | plugins/conversation-search/skills/scripts/search_history.py:392-393 | the first user message, with no user message before it; nothing exactly when no message is a user's |
| Excerpts.TopicSource | plugins/conversation-search/skills/scripts/search_history.py:392-414 | topics come from the first user message among the first three, with no user message before it; nothing when none of the three is a user's |
| Excerpts.ExtractTopics | plugins/conversation-search/skills/scripts/search_history.py:387-416 | at most five distinct tags, each a candidate; none without a user message in the first three; a candidate left out means five are kept |
| Excerpts.TopicsComeFromFirstUserMessage | plugins/conversation-search/skills/scripts/search_history.py:392-414 | every tag is a quoted term of the lower-cased source message or the tag of an action word it contains |
| Sorting.SortBy | plugins/conversation-search/skills/scripts/search_history.py:454 | stable sort: sorted, a permutation, and every class of equivalent elements keeps its input order |
| Sorting.SortedPrefix | plugins/conversation-search/skills/scripts/search_history.py:454-455 | a prefix of a sorted permutation that keeps the input's equivalence classes (as the stable sort does) is a sorted sub-multiset whose classes are prefixes of the input's, and it comes before everything it leaves out |
| Sorting.SortedDistinct | plugins/conversation-search/skills/scripts/search_history.py:355 | `sorted(set(xs))` is strictly increasing and has exactly the elements of `xs` |
| Sorting.SmallestDistinct | plugins/conversation-search/skills/scripts/search_history.py:355 | `sorted(set(xs))[:n]` holds at most n elements of `xs`, strictly increasing, each smaller than any element left out |
| Sorting.TakePrefix | plugins/conversation-search/skills/scripts/search_history.py:455 | Python's `s[:n]` is a prefix of length min(n, len) for n ≥ 0 and len + n (at least 0) for n < 0 |
| Search.ResultFor | plugins/conversation-search/skills/scripts/search_history.py:430-452 | a file yields a result only when it is not an agent file, parses, passes the date filter and scores above 0; the result carries the relevance score and the matched messages of its conversation, the problem excerpt of that conversation, the solution excerpt of the matched messages and the Bash commands the conversation ran |
| Search.ResultForComplete | plugins/conversation-search/skills/scripts/search_history.py:430-452 | conversely, every non-agent file that parses, passes the date filter and scores above 0 yields a result, so with `ResultFor` a file yields a result exactly when all four conditions hold |
| Wrappers.FilterMapMembers | plugins/conversation-search/skills/scripts/search_history.py:429-452 | a value is collected exactly when some enumerated element yields it |
| Search.CollectMembers | plugins/conversation-search/skills/scripts/search_history.py:429-452 | a result is collected exactly when some enumerated file yields it |
| Search.Rank | plugins/conversation-search/skills/scripts/search_history.py:454-455 | the ranked list has length min(limit, n) for limit ≥ 0, scores do not increase, equal scores keep enumeration order, and left-out results score no higher than any kept |
| Search.SearchConversations | plugins/conversation-search/skills/scripts/search_history.py:419-455 | length min(limit, candidates) for limit ≥ 0; every result scores above 0 and passes the date filter; scores do not increase; equal scores keep enumeration order; results come from the candidates; any candidate left out scores no higher than every result |
| Search.TimestampOrder | plugins/conversation-search/skills/scripts/search_history.py:482 | ordering by raw timestamp string is a total preorder whose equivalent elements are those with equal timestamps |
| Search.OnDayMembers | plugins/conversation-search/skills/scripts/search_history.py:466-479 | a conversation is on the day's list exactly when a non-agent file yields it and its timestamp parses to an instant on that day |
| Search.GetConversationsForDate | plugins/conversation-search/skills/scripts/search_history.py:458-483 | an overflow error exactly for 9999-12-31, whose ending midnight datetime cannot hold (:467); otherwise a permutation of the day's conversations, each stamped on that day, in non-decreasing timestamp-string order, equal timestamps keeping enumeration order |
| Search.SortByTimestamp | plugins/conversation-search/skills/scripts/search_history.py:482 | a permutation of its input in non-decreasing timestamp-string order, where conversations with equal timestamps keep their input order |

## Left out

- File system: `get_claude_projects_dir`, `get_project_dirs` (home directory, `resolve`, `iterdir`, partial-name matching) and `glob` enumeration are not modelled, because they are I/O. The enumerated files are an input sequence, in directory order and then file order within a directory.
- Reading: opening files, UTF-8 decoding and `json.loads` are not modelled, because they are I/O and library parsing. Each line arrives already decoded as a `Record`. A file that cannot be read yields nothing in the source; the model has no case for it.
- Non-string text loses the file in the source, but not in the model. The model's text and thinking blocks, and the text items of tool results, always hold a string. In the source, a `text` or `thinking` value that is JSON null or another non-string makes `'\n'.join` raise `TypeError` (lines 118 and 152). The file-level handler (line 265) catches it, so the whole file yields nothing.
- Other non-string JSON values are not modelled. The model takes strings, or JSON null as `None`, where the source expects strings: summary, timestamp, uuid, parent uuid, branch, tool name, tool input values. A missing key takes the source's default: `''` for `uuid` and `timestamp`, None for `parentUuid`, `gitBranch` and `summary`. A number in one of these fields, or a tool `input` that is not an object, can make later source code raise; the model has no such case.
- Command line and rendering are not modelled, because they are outside the core: `main`, argparse, `format_digest`, `format_result_text`, `format_result_json`, `parse_digest_date`, printing to stderr and `sys.exit`. The fatal invalid `--since` date becomes the `Failure(InvalidSince)` result of `Dates.GetDateFilter`. A date filter bound outside datetime's range, or the end of a digest for 9999-12-31, makes the source raise an uncaught `OverflowError`; the model returns `Failure(OutOfRange)` from `Dates.GetDateFilter` or `Search.GetConversationsForDate` instead.
- Clock: `datetime.now()` is replaced by a `today` day-ordinal parameter. The digest takes its target day as an ordinal.
- Floating point: scores are `real`. Rounding, and any change in tie order it could cause, are not modelled.
- Dates.ParseDate: accepts only zero-padded fixed-width fields (`YYYY-MM-DD`, `HH:MM:SS`, one to six fraction digits). `strptime` also accepts one-digit month, day, hour, minute and second fields, which the model rejects.
- Tokenizer.Tokenize: word characters, `lower()` and `strip()` white space are ASCII only. Non-ASCII letters, which Python's `\w` accepts, are treated as separators.
- Strings.AfterLast: `Path(path).name` is taken to be the text after the last `/`. Trailing slashes and `.` components are not normalised.
- Excerpts.ExtractTopics: the source returns `list(set)[:5]`, whose order is unspecified, so which five tags are kept is also unspecified. The model keeps the five smallest in string order. Only the bound, distinctness and membership are stated.
- Message tree: `parent_uuid` is kept as a field but never used for ordering, as in the source.

=== FILE: content.dfy ===
/** Message content payloads and the three extractors over them
    (search_history.py lines 105-153).

    A payload is a bare string, a list of blocks, or any other JSON value.
    Within a list, a block is a text, thinking, tool-use or tool-result
    object, or anything else (a non-object, or an object of another type).
    A tool result's own `content` is again a payload, of which only the
    text items count. Missing optional fields are given their source
    defaults by the decoder (`''` for text, `{}` for input). */
module Content {
  import opened Wrappers
  import opened Strings

  datatype Payload =
    | Text(text: string)
    | Blocks(blocks: seq<Block>)
    | OtherPayload

  datatype Block =
    | TextBlock(text: string)
    | ThinkingBlock(thinking: string)
    | ToolUseBlock(name: Option<string>, input: map<string, string>)
    | ToolResultBlock(content: Payload)
    | OtherBlock

  /** One entry of `extract_tool_uses`: the tool's name (JSON null or missing gives None) and its input. */
  datatype ToolUse = ToolUse(name: Option<string>, input: map<string, string>)

  /** `d.get(key, '')` on a string-valued dictionary. */
  function Lookup(m: map<string, string>, key: string): string {
    if key in m then m[key] else ""
  }

  /** The plain-text pieces of a block list: text and thinking blocks, in order. */
  function TextPieces(blocks: seq<Block>): seq<string> {
    if |blocks| == 0 then []
    else
      var piece := match blocks[0]
        case TextBlock(t) => [t]
        case ThinkingBlock(t) => [t]
        case _ => [];
      piece + TextPieces(blocks[1..])
  }

  /** Only the `text` items of a tool result's block list. */
  function TextItems(blocks: seq<Block>): seq<string> {
    if |blocks| == 0 then []
    else (if blocks[0].TextBlock? then [blocks[0].text] else []) + TextItems(blocks[1..])
  }

  function ExtractTextContent(p: Payload): string {
    match p
    case Text(s) => s
    case Blocks(bs) => JoinLines(TextPieces(bs))
    case OtherPayload => ""
  }

  function ToolUsesOf(blocks: seq<Block>): seq<ToolUse> {
    if |blocks| == 0 then []
    else
      (if blocks[0].ToolUseBlock? then [ToolUse(blocks[0].name, blocks[0].input)] else [])
      + ToolUsesOf(blocks[1..])
  }

  function ExtractToolUses(p: Payload): (r: seq<ToolUse>)
    ensures !p.Blocks? ==> r == []
  {
    if p.Blocks? then ToolUsesOf(p.blocks) else []
  }

  /** The result text of one tool-result payload, or nothing when the payload
      is neither a string nor a list. */
  function ResultText(p: Payload): seq<string> {
    match p
    case Text(s) => [s]
    case Blocks(items) => [JoinLines(TextItems(items))]
    case OtherPayload => []
  }

  function ToolResultsOf(blocks: seq<Block>): seq<string> {
    if |blocks| == 0 then []
    else (if blocks[0].ToolResultBlock? then ResultText(blocks[0].content) else [])
         + ToolResultsOf(blocks[1..])
  }

  function ExtractToolResults(p: Payload): (r: seq<string>)
    ensures !p.Blocks? ==> r == []
  {
    if p.Blocks? then ToolResultsOf(p.blocks) else []
  }

  lemma {:induction false} TextPiecesAppend(a: seq<Block>, b: seq<Block>)
    ensures TextPieces(a + b) == TextPieces(a) + TextPieces(b)
    decreases |a|
  {
    if |a| == 0 {
      assert a + b == b;
    } else {
      assert (a + b)[0] == a[0];
      assert (a + b)[1..] == a[1..] + b;
      TextPiecesAppend(a[1..], b);
    }
  }

  lemma {:induction false} ToolUsesAppend(a: seq<Block>, b: seq<Block>)
    ensures ToolUsesOf(a + b) == ToolUsesOf(a) + ToolUsesOf(b)
    decreases |a|
  {
    if |a| == 0 {
      assert a + b == b;
    } else {
      assert (a + b)[0] == a[0];
      assert (a + b)[1..] == a[1..] + b;
      ToolUsesAppend(a[1..], b);
    }
  }

  lemma {:induction false} ToolResultsAppend(a: seq<Block>, b: seq<Block>)
    ensures ToolResultsOf(a + b) == ToolResultsOf(a) + ToolResultsOf(b)
    decreases |a|
  {
    if |a| == 0 {
      assert a + b == b;
    } else {
      assert (a + b)[0] == a[0];
      assert (a + b)[1..] == a[1..] + b;
      ToolResultsAppend(a[1..], b);
    }
  }

  /** Each extractor over a block list is determined block by block and in
      order: the extraction of `a + b` is the extraction of `a` followed by
      that of `b`. */
  lemma ExtractorsFollowBlockOrder(a: seq<Block>, b: seq<Block>)
    ensures TextPieces(a + b) == TextPieces(a) + TextPieces(b)
    ensures ToolUsesOf(a + b) == ToolUsesOf(a) + ToolUsesOf(b)
    ensures ToolResultsOf(a + b) == ToolResultsOf(a) + ToolResultsOf(b)
  {
    TextPiecesAppend(a, b);
    ToolUsesAppend(a, b);
    ToolResultsAppend(a, b);
  }

  /** What a single block contributes to each extractor. */
  lemma SingleBlock(b: Block)
    ensures TextPieces([b]) == (match b
                                case TextBlock(t) => [t]
                                case ThinkingBlock(t) => [t]
                                case _ => [])
    ensures ToolUsesOf([b]) == (if b.ToolUseBlock? then [ToolUse(b.name, b.input)] else [])
    ensures ToolResultsOf([b]) == (if b.ToolResultBlock? then ResultText(b.content) else [])
  {
    assert [b][1..] == [];
  }

  /** A string payload is returned unchanged; a payload that is neither a
      string nor a list gives the empty text; a block list gives its text
      and thinking pieces joined by newlines, and when no piece holds a
      newline those pieces can be read back, in order, by splitting. */
  lemma ExtractTextContentShape(p: Payload)
    ensures p.Text? ==> ExtractTextContent(p) == p.text
    ensures p.OtherPayload? ==> ExtractTextContent(p) == ""
    ensures p.Blocks? && |TextPieces(p.blocks)| == 0 ==> ExtractTextContent(p) == ""
    ensures p.Blocks? && |TextPieces(p.blocks)| >= 1
            && (forall k :: 0 <= k < |TextPieces(p.blocks)| ==> '\n' !in TextPieces(p.blocks)[k])
            ==> SplitLines(ExtractTextContent(p)) == TextPieces(p.blocks)
  {
    if p.Blocks? && |TextPieces(p.blocks)| >= 1
       && (forall k :: 0 <= k < |TextPieces(p.blocks)| ==> '\n' !in TextPieces(p.blocks)[k]) {
      SplitJoinLines(TextPieces(p.blocks));
    }
  }
}

=== FILE: dates.dfy ===
/** Timestamps and date filtering (search_history.py lines 156-213).

    An instant is a count of microseconds, day `d` (a proleptic Gregorian
    ordinal, 0001-01-01 being day 1, as Python's `date.toordinal`) starting at
    `d · MicrosPerDay`. Time-zone suffixes are dropped as the source drops
    them, so instants are naive local times. "Today" is a parameter (the day
    of `datetime.now()`). `strptime` is modelled as a fixed-width parser:
    every field zero-padded, ranges and days per month checked. */
module Dates {
  import opened Wrappers
  import opened Strings
  import opened Sessions

  const MicrosPerSecond: int := 1_000_000
  const MicrosPerDay: int := 86_400 * MicrosPerSecond

  // ---------------------------------------------------------------------
  // Calendar

  predicate IsLeap(y: int) {
    y % 4 == 0 && (y % 100 != 0 || y % 400 == 0)
  }

  function DaysInMonth(y: int, m: int): int
    requires 1 <= m <= 12
  {
    if m == 2 then (if IsLeap(y) then 29 else 28)
    else if m == 4 || m == 6 || m == 9 || m == 11 then 30
    else 31
  }

  function DaysBeforeMonth(y: int, m: int): int
    requires 1 <= m <= 12
  {
    [0, 31, 59, 90, 120, 151, 181, 212, 243, 273, 304, 334][m - 1]
    + (if m > 2 && IsLeap(y) then 1 else 0)
  }

  /** `date(y, m, d).toordinal()`. */
  function Ordinal(y: int, m: int, d: int): int
    requires y >= 1 && 1 <= m <= 12
  {
    var p := y - 1;
    365 * p + p / 4 - p / 100 + p / 400 + DaysBeforeMonth(y, m) + d
  }

  function DayStart(day: int): int {
    day * MicrosPerDay
  }

  /** The day an instant falls on. */
  function DayOf(t: int): int {
    t / MicrosPerDay
  }

  lemma DayOfInstant(day: int, micros: int)
    requires 0 <= micros < MicrosPerDay
    ensures DayOf(DayStart(day) + micros) == day
  {
  }

  /** An instant lies in `[DayStart(lo), DayStart(hi + 1))` exactly when its day is between `lo` and `hi`. */
  lemma DayBounds(t: int, lo: int, hi: int)
    ensures DayStart(lo) <= t < DayStart(hi + 1) <==> lo <= DayOf(t) <= hi
  {
    var d := DayOf(t);
    var rest := t % MicrosPerDay;
    assert t == d * MicrosPerDay + rest && 0 <= rest < MicrosPerDay;
    if lo <= d {
      assert lo * MicrosPerDay <= d * MicrosPerDay;
    } else {
      assert d + 1 <= lo;
      assert (d + 1) * MicrosPerDay <= lo * MicrosPerDay;
    }
    if d <= hi {
      assert (d + 1) * MicrosPerDay <= (hi + 1) * MicrosPerDay;
    } else {
      assert hi + 1 <= d;
      assert (hi + 1) * MicrosPerDay <= d * MicrosPerDay;
    }
  }

  // ---------------------------------------------------------------------
  // Fixed-width parsing

  predicate IsDigit(c: char) {
    '0' <= c <= '9'
  }

  predicate AllDigits(s: string) {
    forall k :: 0 <= k < |s| ==> IsDigit(s[k])
  }

  /** The decimal value of a string of digits. */
  function DigitsValue(s: string): (v: nat)
    requires AllDigits(s)
    ensures v < Pow10(|s|)
    decreases |s|
  {
    if |s| == 0 then 0
    else DigitsValue(s[..|s| - 1]) * 10 + (s[|s| - 1] as int - '0' as int)
  }

  function Pow10(n: nat): (p: nat)
    ensures p >= 1
  {
    if n == 0 then 1 else 10 * Pow10(n - 1)
  }

  /** `strptime(s, '%Y-%m-%d')`: the ordinal of the day written as `YYYY-MM-DD`. */
  function ParseDate(s: string): (r: Option<int>)
    ensures r.Some? ==> |s| == 10 && r.value >= 1
  {
    if |s| != 10 || s[4] != '-' || s[7] != '-'
       || !AllDigits(s[..4]) || !AllDigits(s[5..7]) || !AllDigits(s[8..]) then None
    else
      var y := DigitsValue(s[..4]);
      var m := DigitsValue(s[5..7]);
      var d := DigitsValue(s[8..]);
      if y < 1 || m < 1 || 12 < m || d < 1 || DaysInMonth(y, m) < d then None
      else Some(Ordinal(y, m, d))
  }

  /** `%H:%M:%S`: the microseconds since midnight of an `HH:MM:SS` clock reading. */
  function ParseClock(s: string): (r: Option<int>)
    ensures r.Some? ==> |s| == 8 && 0 <= r.value && r.value + MicrosPerSecond <= MicrosPerDay
  {
    if |s| != 8 || s[2] != ':' || s[5] != ':'
       || !AllDigits(s[..2]) || !AllDigits(s[3..5]) || !AllDigits(s[6..]) then None
    else
      var h := DigitsValue(s[..2]);
      var m := DigitsValue(s[3..5]);
      var sec := DigitsValue(s[6..]);
      if 23 < h || 59 < m || 59 < sec then None
      else Some(ClockMicros(h, m, sec))
  }

  /** The microseconds from midnight to `h:mi:sec`. */
  function ClockMicros(h: int, mi: int, sec: int): int {
    ((h * 60 + mi) * 60 + sec) * MicrosPerSecond
  }

  /** `%f`: one to six digits, read as the leading digits of the microseconds. */
  function ParseFraction(s: string): (r: Option<int>)
    ensures r.Some? ==> 0 <= r.value < MicrosPerSecond
  {
    if |s| < 1 || 6 < |s| || !AllDigits(s) then None
    else
      var v := DigitsValue(s);
      assert v * Pow10(6 - |s|) < MicrosPerSecond by {
        Pow10Add(|s|, 6 - |s|);
        Pow10Six();
        assert v * Pow10(6 - |s|) < Pow10(|s|) * Pow10(6 - |s|);
      }
      Some(v * Pow10(6 - |s|))
  }

  lemma Pow10Six()
    ensures Pow10(6) == MicrosPerSecond
  {
    assert Pow10(2) == 100;
    assert Pow10(4) == 10_000;
  }

  lemma {:induction false} Pow10Add(a: nat, b: nat)
    ensures Pow10(a) * Pow10(b) == Pow10(a + b)
    decreases a
  {
    if a > 0 {
      Pow10Add(a - 1, b);
    }
  }

  /** `strptime(s, '%Y-%m-%dT%H:%M:%S')`. */
  function ParseDateTime(s: string): (r: Option<int>)
    ensures r.Some? ==> |s| == 19 && ParseDate(s[..10]).Some?
                        && DayStart(ParseDate(s[..10]).value) <= r.value
                        && r.value + MicrosPerSecond <= DayStart(ParseDate(s[..10]).value + 1)
  {
    if |s| != 19 || s[10] != 'T' then None
    else
      match (ParseDate(s[..10]), ParseClock(s[11..]))
      case (Some(day), Some(clock)) => Some(DayStart(day) + clock)
      case _ => None
  }

  /** `strptime(s, '%Y-%m-%dT%H:%M:%S.%f')`. */
  function ParseDateTimeFraction(s: string): (r: Option<int>)
    ensures r.Some? ==> 21 <= |s| && ParseDate(s[..10]).Some?
                        && DayStart(ParseDate(s[..10]).value) <= r.value < DayStart(ParseDate(s[..10]).value + 1)
  {
    if |s| < 21 || s[19] != '.' then None
    else
      assert s[..19][..10] == s[..10];
      match (ParseDateTime(s[..19]), ParseFraction(s[20..]))
      case (Some(t), Some(f)) => Some(t + f)
      case _ => None
  }

  /** A timestamp with fractional seconds, read from its first 26 characters. */
  function ParseWithFraction(t: string): (r: Option<int>)
    ensures r.Some? ==> |t| >= 21 && ParseDate(t[..10]).Some?
                        && DayStart(ParseDate(t[..10]).value) <= r.value < DayStart(ParseDate(t[..10]).value + 1)
  {
    var clipped := t[..Min(26, |t|)];
    var r := ParseDateTimeFraction(clipped);
    if r.Some? then
      assert clipped[..10] == t[..10];
      r
    else None
  }

  /** A timestamp without fractional seconds, read from its first 19 characters. */
  function ParseWhole(t: string): (r: Option<int>)
    ensures r.Some? ==> |t| >= 19 && ParseDate(t[..10]).Some?
                        && DayStart(ParseDate(t[..10]).value) <= r.value < DayStart(ParseDate(t[..10]).value + 1)
  {
    var clipped := t[..Min(19, |t|)];
    var r := ParseDateTime(clipped);
    if r.Some? then
      assert clipped[..10] == t[..10];
      r
    else None
  }

  /** The part of `parse_timestamp` for a timestamp with a `T`, once its zone
      suffix is gone: with fractional seconds when a `.` remains, otherwise
      without. */
  function ParseDateAndTime(t: string): (r: Option<int>)
    ensures r.Some? ==> |t| >= 19 && ParseDate(t[..10]).Some?
                        && DayStart(ParseDate(t[..10]).value) <= r.value < DayStart(ParseDate(t[..10]).value + 1)
  {
    if '.' in t then ParseWithFraction(t) else ParseWhole(t)
  }

  /** `parse_timestamp`. An empty string parses to nothing. A timestamp with
      a `T` loses everything from its first `+`, then from its first `Z`; one
      without a `T` is read as a bare date from its first ten characters.
      Whatever parses falls on the day its first ten characters name. */
  function ParseTimestamp(ts: string): (r: Option<int>)
    ensures ts == "" ==> r.None?
    ensures r.Some? ==> |ts| >= 10 && ParseDate(ts[..10]).Some? && DayOf(r.value) == ParseDate(ts[..10]).value
  {
    if |ts| == 0 then None
    else if 'T' in ts then
      var t := BeforeFirst(BeforeFirst(ts, '+'), 'Z');
      var r := ParseDateAndTime(t);
      if r.Some? then
        assert t[..10] == ts[..10];
        var day := ParseDate(ts[..10]).value;
        DayBounds(r.value, day, day);
        r
      else r
    else
      match ParseDate(ts[..Min(10, |ts|)])
      case Some(day) =>
        DayOfInstant(day, 0);
        Some(DayStart(day))
      case None => None
  }

  // ---------------------------------------------------------------------
  // Completeness: well-formed text parses, to the instant it writes

  /** `v` written with exactly `w` decimal digits, zero-padded, as `%0*d`
      writes it (only the low `w` digits when `v` is wider). */
  function Digits(v: nat, w: nat): (s: string)
    ensures |s| == w && AllDigits(s)
  {
    if w == 0 then "" else Digits(v / 10, w - 1) + [('0' as int + v % 10) as char]
  }

  /** Reading back the `w` digits written for a value below `10^w` gives the value. */
  lemma {:induction false} DigitsValueOfDigits(v: nat, w: nat)
    requires v < Pow10(w)
    ensures DigitsValue(Digits(v, w)) == v
    decreases w
  {
    if w > 0 {
      var s := Digits(v, w);
      assert s[..w - 1] == Digits(v / 10, w - 1);
      DigitsValueOfDigits(v / 10, w - 1);
    }
  }

  /** Writing the value of a digit string with as many digits gives the string back. */
  lemma {:induction false} DigitsOfDigitsValue(s: string)
    requires AllDigits(s)
    ensures Digits(DigitsValue(s), |s|) == s
    decreases |s|
  {
    if |s| > 0 {
      var init := s[..|s| - 1];
      assert AllDigits(init);
      DigitsOfDigitsValue(init);
      var v := DigitsValue(s);
      assert v / 10 == DigitsValue(init) && v % 10 == s[|s| - 1] as int - '0' as int;
      assert s == init + [s[|s| - 1]];
    }
  }

  lemma Pow10Four()
    ensures Pow10(2) == 100 && Pow10(4) == 10_000
  {
    assert Pow10(1) == 10;
    assert Pow10(3) == 1_000;
  }

  /** A day that exists: years 1 through 9999, months 1 through 12, and a day of that month. */
  predicate ValidDate(y: nat, m: nat, d: nat) {
    1 <= y <= 9999 && 1 <= m <= 12 && 1 <= d <= DaysInMonth(y, m)
  }

  /** `YYYY-MM-DD`, zero-padded. */
  function DateText(y: nat, m: nat, d: nat): string {
    Digits(y, 4) + "-" + Digits(m, 2) + "-" + Digits(d, 2)
  }

  /** A clock reading from 00:00:00 through 23:59:59. */
  predicate ValidClock(h: nat, mi: nat, sec: nat) {
    h <= 23 && mi <= 59 && sec <= 59
  }

  /** `HH:MM:SS`, zero-padded. */
  function ClockText(h: nat, mi: nat, sec: nat): string {
    Digits(h, 2) + ":" + Digits(mi, 2) + ":" + Digits(sec, 2)
  }

  /** Every valid date written as `YYYY-MM-DD` parses, to its ordinal. */
  lemma {:induction false} ParseDateText(y: nat, m: nat, d: nat)
    requires ValidDate(y, m, d)
    ensures ParseDate(DateText(y, m, d)) == Some(Ordinal(y, m, d))
  {
    var s := DateText(y, m, d);
    assert s[..4] == Digits(y, 4) && s[5..7] == Digits(m, 2) && s[8..] == Digits(d, 2);
    assert s[4] == '-' && s[7] == '-';
    Pow10Four();
    DigitsValueOfDigits(y, 4);
    DigitsValueOfDigits(m, 2);
    DigitsValueOfDigits(d, 2);
  }

  /** Conversely, only the `YYYY-MM-DD` text of a valid date parses, and to that date's ordinal. */
  lemma {:induction false} ParseDateSound(s: string)
    ensures ParseDate(s).Some? ==>
              exists y: nat, m: nat, d: nat :: ValidDate(y, m, d) && s == DateText(y, m, d)
                                             && ParseDate(s).value == Ordinal(y, m, d)
  {
    if ParseDate(s).Some? {
      var y, m, d := DigitsValue(s[..4]), DigitsValue(s[5..7]), DigitsValue(s[8..]);
      assert |s| == 10 && s[4] == '-' && s[7] == '-';
      assert AllDigits(s[..4]) && AllDigits(s[5..7]) && AllDigits(s[8..]);
      assert ValidDate(y, m, d) && ParseDate(s).value == Ordinal(y, m, d);
      assert Digits(y, 4) == s[..4] by { DigitsOfDigitsValue(s[..4]); }
      assert Digits(m, 2) == s[5..7] by { DigitsOfDigitsValue(s[5..7]); }
      assert Digits(d, 2) == s[8..] by { DigitsOfDigitsValue(s[8..]); }
      assert s == s[..4] + "-" + s[5..7] + "-" + s[8..];
    }
  }

  /** Every valid clock reading written as `HH:MM:SS` parses, to its offset from midnight. */
  lemma {:induction false} ParseClockText(h: nat, mi: nat, sec: nat)
    requires ValidClock(h, mi, sec)
    ensures ParseClock(ClockText(h, mi, sec)) == Some(ClockMicros(h, mi, sec))
  {
    var s := ClockText(h, mi, sec);
    assert s[..2] == Digits(h, 2) && s[3..5] == Digits(mi, 2) && s[6..] == Digits(sec, 2);
    assert s[2] == ':' && s[5] == ':';
    Pow10Four();
    DigitsValueOfDigits(h, 2);
    DigitsValueOfDigits(mi, 2);
    DigitsValueOfDigits(sec, 2);
  }

  /** One to six fraction digits parse, read as the leading digits of the microseconds. */
  lemma {:induction false} ParseFractionText(v: nat, w: nat)
    requires 1 <= w <= 6 && v < Pow10(w)
    ensures ParseFraction(Digits(v, w)) == Some(v * Pow10(6 - w))
  {
    var f := Digits(v, w);
    assert |f| == w && AllDigits(f);
    DigitsValueOfDigits(v, w);
    assert DigitsValue(f) * Pow10(6 - |f|) == v * Pow10(6 - w);
  }

  /** A date and a clock reading joined by `T` parse when both parts do. */
  lemma JoinDateAndClock(date: string, clock: string, day: int, micros: int)
    requires ParseDate(date) == Some(day) && ParseClock(clock) == Some(micros)
    ensures ParseDateTime(date + "T" + clock) == Some(DayStart(day) + micros)
  {
    JoinedAt(date, 'T', clock);
  }

  /** Where the two parts of `a + [sep] + b` sit. */
  lemma JoinedAt(a: string, sep: char, b: string)
    ensures var s := a + [sep] + b;
            && |s| == |a| + 1 + |b| && s[|a|] == sep && s[..|a|] == a && s[|a| + 1..] == b
  {
    var s := a + [sep] + b;
    assert s[..|a|] == a;
    assert s[|a| + 1..] == b;
  }

  /** A date and time joined by `.` to fraction digits parse when both parts do. */
  lemma JoinFraction(dt: string, f: string, t: int, micros: int)
    requires ParseDateTime(dt) == Some(t) && ParseFraction(f) == Some(micros)
    ensures ParseDateTimeFraction(dt + "." + f) == Some(t + micros)
  {
    JoinedAt(dt, '.', f);
  }

  /** A valid date, `T` and a valid clock reading parse to that day's midnight plus the clock. */
  lemma {:induction false} ParseDateTimeText(y: nat, m: nat, d: nat, h: nat, mi: nat, sec: nat)
    requires ValidDate(y, m, d) && ValidClock(h, mi, sec)
    ensures ParseDateTime(DateText(y, m, d) + "T" + ClockText(h, mi, sec))
            == Some(DayStart(Ordinal(y, m, d)) + ClockMicros(h, mi, sec))
  {
    ParseDateText(y, m, d);
    ParseClockText(h, mi, sec);
    JoinDateAndClock(DateText(y, m, d), ClockText(h, mi, sec), Ordinal(y, m, d), ClockMicros(h, mi, sec));
  }

  /** Written digits hold no other character. */
  lemma {:induction false} DigitsOnly(v: nat, w: nat, c: char)
    requires !IsDigit(c)
    ensures c !in Digits(v, w)
  {
    var s := Digits(v, w);
    assert forall k :: 0 <= k < |s| ==> s[k] != c;
  }

  /** A written date uses only digits and `-`. */
  lemma {:induction false} DateTextChars(y: nat, m: nat, d: nat, c: char)
    requires !IsDigit(c) && c != '-'
    ensures c !in DateText(y, m, d)
  {
    DigitsOnly(y, 4, c);
    DigitsOnly(m, 2, c);
    DigitsOnly(d, 2, c);
  }

  /** A written date and time uses only digits, `-`, `T` and `:`. */
  lemma {:induction false} DateTimeTextChars(y: nat, m: nat, d: nat, h: nat, mi: nat, sec: nat, c: char)
    requires !IsDigit(c) && c != '-' && c != 'T' && c != ':'
    ensures c !in DateText(y, m, d) + "T" + ClockText(h, mi, sec)
  {
    DateTextChars(y, m, d, c);
    DigitsOnly(h, 2, c);
    DigitsOnly(mi, 2, c);
    DigitsOnly(sec, 2, c);
  }

  /** Cutting `t + z` at its first `c`, where `t` has none, keeps all of
      `t` and cuts `z`. */
  lemma {:induction false} BeforeFirstAppend(t: string, z: string, c: char)
    requires c !in t
    ensures BeforeFirst(t + z, c) == t + BeforeFirst(z, c)
    decreases |t|
  {
    if |t| == 0 {
      assert t + z == z;
    } else {
      assert (t + z)[1..] == t[1..] + z;
      BeforeFirstAppend(t[1..], z, c);
      assert t == [t[0]] + t[1..];
    }
  }

  /** In particular a suffix that is empty or starts with `c` is cut off whole. */
  lemma {:induction false} CutAtSuffix(t: string, z: string, c: char)
    requires c !in t && (z == "" || z[0] == c)
    ensures BeforeFirst(t + z, c) == t
  {
    BeforeFirstAppend(t, z, c);
    assert t + "" == t;
  }

  /** A zone suffix as `parse_timestamp` removes it: nothing, or text from a `+` or a `Z` on. */
  predicate ZoneSuffix(z: string) {
    z == "" || z[0] == '+' || z[0] == 'Z'
  }

  /** A timestamp with a `T` and no `+` or `Z` reads the same with a zone suffix appended. */
  lemma {:induction false} TimestampDropsZone(t: string, z: string)
    requires 'T' in t && '+' !in t && 'Z' !in t && ZoneSuffix(z)
    ensures ParseTimestamp(t + z) == ParseTimestamp(t)
  {
    CutAtSuffix(t, "", '+');
    CutAtSuffix(t, "", 'Z');
    assert t + "" == t;
    var plus := BeforeFirst(t + z, '+');
    if z != "" && z[0] == 'Z' {
      BeforeFirstAppend(t, z, '+');
      CutAtSuffix(t, BeforeFirst(z, '+'), 'Z');
    } else {
      CutAtSuffix(t, z, '+');
    }
    assert BeforeFirst(plus, 'Z') == t;
  }

  /** A timestamp with a `T` and no zone is read as a date and time, uncut. */
  lemma TimestampWithoutZone(t: string)
    requires 'T' in t && '+' !in t && 'Z' !in t
    ensures ParseTimestamp(t) == ParseDateAndTime(t)
  {
    CutAtSuffix(t, "", '+');
    CutAtSuffix(t, "", 'Z');
    assert t + "" == t;
  }

  /** With a `.` the date and time are read from the first 26 characters. */
  lemma ReadsFractionPrefix(t: string)
    requires '.' in t
    ensures ParseDateAndTime(t) == ParseDateTimeFraction(t[..Min(26, |t|)])
  {
  }

  /** Without a `.` they are read from the first 19. */
  lemma ReadsWholePrefix(t: string)
    requires '.' !in t
    ensures ParseDateAndTime(t) == ParseDateTime(t[..Min(19, |t|)])
  {
  }

  /** A timestamp in whole seconds parses, whatever follows: a zone cut off
      at `+` or `Z`, and before it text without `.`, `+` or `Z`, such as a
      negative offset `-05:00`, which the 19-character slice drops. */
  lemma {:induction false} TimestampWhole(y: nat, m: nat, d: nat, h: nat, mi: nat, sec: nat, rest: string, z: string)
    requires ValidDate(y, m, d) && ValidClock(h, mi, sec)
    requires '.' !in rest && '+' !in rest && 'Z' !in rest && ZoneSuffix(z)
    ensures ParseTimestamp(DateText(y, m, d) + "T" + ClockText(h, mi, sec) + rest + z)
            == Some(DayStart(Ordinal(y, m, d)) + ClockMicros(h, mi, sec))
  {
    var dt := DateText(y, m, d) + "T" + ClockText(h, mi, sec);
    var t := dt + rest;
    DateTimeTextChars(y, m, d, h, mi, sec, '+');
    DateTimeTextChars(y, m, d, h, mi, sec, 'Z');
    DateTimeTextChars(y, m, d, h, mi, sec, '.');
    assert dt[10] == 'T' && t[10] == 'T';
    TimestampDropsZone(t, z);
    TimestampWithoutZone(t);
    ReadsWholePrefix(t);
    assert t[..Min(19, |t|)] == dt;
    ParseDateTimeText(y, m, d, h, mi, sec);
  }

  /** Where the pieces of a fractional timestamp sit: the `T` at 10, the
      `.` at 19, and the fraction inside the first 26 characters. */
  lemma FractionLayout(dt: string, f: string, more: string)
    requires |dt| == 19 && dt[10] == 'T' && 1 <= |f| <= 6 && (|f| == 6 || more == "")
    ensures var t := dt + "." + f + more;
            && 'T' in t && '.' in t
            && t[..Min(26, |t|)] == dt + "." + f
  {
    var t := dt + "." + f + more;
    assert t[10] == 'T' && t[19] == '.';
  }

  /** What the fraction case needs of a written date and time: it parses, and
      holds a `T` at index 10 and no zone character. */
  lemma {:induction false} DateTimeTextParts(y: nat, m: nat, d: nat, h: nat, mi: nat, sec: nat)
    requires ValidDate(y, m, d) && ValidClock(h, mi, sec)
    ensures var dt := DateText(y, m, d) + "T" + ClockText(h, mi, sec);
            && ParseDateTime(dt) == Some(DayStart(Ordinal(y, m, d)) + ClockMicros(h, mi, sec))
            && dt[10] == 'T' && '+' !in dt && 'Z' !in dt
  {
    ParseDateTimeText(y, m, d, h, mi, sec);
    DateTimeTextChars(y, m, d, h, mi, sec, '+');
    DateTimeTextChars(y, m, d, h, mi, sec, 'Z');
  }

  /** A timestamp with one to six fraction digits parses, to the instant
      plus the fraction: a date and time that parses, `.`, fraction digits that
      parse, further digits only after six (the 26-character slice drops them),
      and a zone suffix, which is cut off. */
  lemma TimestampFraction(dt: string, f: string, more: string, z: string, t0: int, micros: int)
    requires ParseDateTime(dt) == Some(t0) && ParseFraction(f) == Some(micros)
    requires dt[10] == 'T' && 1 <= |f| <= 6 && AllDigits(f)
    requires '+' !in dt && 'Z' !in dt && AllDigits(more) && (|f| == 6 || more == "") && ZoneSuffix(z)
    ensures ParseTimestamp(dt + "." + f + more + z) == Some(t0 + micros)
  {
    var t := dt + "." + f + more;
    assert '+' !in t && 'Z' !in t by {
      assert forall k :: 0 <= k < |f| ==> IsDigit(f[k]);
      assert forall k :: 0 <= k < |more| ==> IsDigit(more[k]);
    }
    FractionLayout(dt, f, more);
    TimestampDropsZone(t, z);
    TimestampWithoutZone(t);
    ReadsFractionPrefix(t);
    JoinFraction(dt, f, t0, micros);
  }

  /** A timestamp without a `T` is read as its leading `YYYY-MM-DD`, at midnight. */
  lemma {:induction false} TimestampDateOnly(y: nat, m: nat, d: nat, rest: string)
    requires ValidDate(y, m, d) && 'T' !in rest
    ensures ParseTimestamp(DateText(y, m, d) + rest) == Some(DayStart(Ordinal(y, m, d)))
  {
    var ts := DateText(y, m, d) + rest;
    DateTextChars(y, m, d, 'T');
    assert ts[..Min(10, |ts|)] == DateText(y, m, d);
    ParseDateText(y, m, d);
  }

  // ---------------------------------------------------------------------
  // Filters

  /** A half-open interval of instants, `[start, end)`. */
  datatype Interval = Interval(start: int, end: int)

  /** The days `lo` through `hi` inclusive, as an interval of instants. */
  function DaySpan(lo: int, hi: int): Interval {
    Interval(DayStart(lo), DayStart(hi + 1))
  }

  /** The date flags of the command line: `--today`, `--yesterday`,
      `--days N` and `--since YYYY-MM-DD`. */
  datatype DateArgs = DateArgs(today: bool, yesterday: bool, days: Option<int>, since: Option<string>)

  /** An unreadable `--since` date (the source prints a message and exits),
      or a span that leaves datetime's range (the source's date arithmetic
      raises `OverflowError`, which nothing catches). */
  datatype DateError = InvalidSince(given: string) | OutOfRange

  /** `--days` is in force when given and non-zero (Python truthiness). */
  predicate DaysGiven(a: DateArgs) {
    a.days.Some? && a.days.value != 0
  }

  /** `--since` is in force when given and non-empty. */
  predicate SinceGiven(a: DateArgs) {
    a.since.Some? && a.since.value != ""
  }

  /** The last day datetime can hold, 9999-12-31, as an ordinal. */
  const MaxDay: int := 3_652_059

  lemma MaxDayIsLastDate()
    ensures Ordinal(9999, 12, 31) == MaxDay
  {
  }

  /** Datetime can hold the midnights that start day `lo` and end day `hi`:
      `lo` lies within 0001-01-01 through 9999-12-31 and the day after `hi`
      is not after 9999-12-31. */
  predicate Representable(lo: int, hi: int) {
    1 <= lo <= MaxDay && hi + 1 <= MaxDay
  }

  /** `r` is the filter for the days `lo` through `hi`, or the overflow error
      when datetime cannot hold its bounds. */
  predicate FilterFor(r: Result<Option<Interval>, DateError>, lo: int, hi: int) {
    if Representable(lo, hi) then r == Success(Some(DaySpan(lo, hi))) else r == Failure(OutOfRange)
  }

  /** The interval from the midnight starting day `first` to the midnight
      `end`, computed as the source does and failing where it would overflow. */
  function Bounds(first: int, end: int): Result<Option<Interval>, DateError> {
    if first < 1 || MaxDay < first || MaxDay < end then Failure(OutOfRange)
    else Success(Some(Interval(DayStart(first), DayStart(end))))
  }

  /** `get_date_filter` with today's date passed in. The flags are tried in
      the order today, yesterday, days, since. Today and yesterday span
      that one day; `--days N` spans the N days ending today; `--since D`
      spans D through today, and an unreadable D is an error. A span
      datetime cannot hold is an error. With no flag there is no filter. */
  function GetDateFilter(args: DateArgs, today: int): (r: Result<Option<Interval>, DateError>)
    ensures args.today ==> FilterFor(r, today, today)
    ensures !args.today && args.yesterday ==> FilterFor(r, today - 1, today - 1)
    ensures !args.today && !args.yesterday && DaysGiven(args) ==>
              FilterFor(r, today - args.days.value + 1, today)
    ensures !args.today && !args.yesterday && !DaysGiven(args) && SinceGiven(args) ==>
              match ParseDate(args.since.value)
              case None => r == Failure(InvalidSince(args.since.value))
              case Some(d) => FilterFor(r, d, today)
    ensures !args.today && !args.yesterday && !DaysGiven(args) && !SinceGiven(args) ==> r == Success(None)
  {
    if args.today then Bounds(today, today + 1)
    else if args.yesterday then Bounds(today - 1, today)
    else if args.days.Some? && args.days.value != 0 then Bounds(today - (args.days.value - 1), today + 1)
    else if args.since.Some? && args.since.value != "" then
      match ParseDate(args.since.value)
      case None => Failure(InvalidSince(args.since.value))
      case Some(d) => Bounds(d, today + 1)
    else Success(None)
  }

  /** `--days N` with today 2024-04-24 (ordinal 739000): seven days end
      today, while a large negative N puts the first day past 9999-12-31,
      where the subtraction overflows. */
  lemma DaysFilterExample()
    ensures GetDateFilter(DateArgs(false, false, Some(7), None), 739_000) == Success(Some(DaySpan(738_994, 739_000)))
    ensures GetDateFilter(DateArgs(false, false, Some(-3_000_000), None), 739_000) == Failure(OutOfRange)
  {
  }

  /** `conversation_in_date_range`. */
  function ConversationInDateRange(c: Conversation, range: Option<Interval>): (r: bool)
    ensures range.None? ==> r
    ensures ParseTimestamp(c.timestamp).None? ==> (r <==> range.None?)
  {
    if range.None? then true
    else
      match ParseTimestamp(c.timestamp)
      case None => false
      case Some(t) => range.value.start <= t < range.value.end
  }

  /** A span of days admits exactly the conversations whose timestamp parses
      to an instant on one of those days. */
  lemma DaySpanAdmits(c: Conversation, lo: int, hi: int)
    ensures ConversationInDateRange(c, Some(DaySpan(lo, hi))) <==>
              ParseTimestamp(c.timestamp).Some? && lo <= DayOf(ParseTimestamp(c.timestamp).value) <= hi
  {
    if ParseTimestamp(c.timestamp).Some? {
      DayBounds(ParseTimestamp(c.timestamp).value, lo, hi);
    }
  }

  /** The today filter spans exactly today: it admits a conversation stamped
      at any instant of today and rejects one stamped 25 hours before such an
      instant, though that is less than two calendar days back. On
      9999-12-31 the filter's end overflows. */
  lemma TodayFilterExample(now: Conversation, earlier: Conversation, today: int, t: int)
    ensures 1 <= today < MaxDay ==>
              GetDateFilter(DateArgs(true, false, None, None), today) == Success(Some(DaySpan(today, today)))
    ensures GetDateFilter(DateArgs(true, false, None, None), MaxDay) == Failure(OutOfRange)
    ensures ParseTimestamp(now.timestamp) == Some(t) && DayOf(t) == today ==>
              ConversationInDateRange(now, Some(DaySpan(today, today)))
    ensures ParseTimestamp(earlier.timestamp) == Some(t - 25 * 3600 * MicrosPerSecond) && DayOf(t) == today ==>
              !ConversationInDateRange(earlier, Some(DaySpan(today, today)))
  {
    DaySpanAdmits(now, today, today);
    DaySpanAdmits(earlier, today, today);
    DayBounds(t, today, today);
  }
}

=== FILE: excerpts.dfy ===
/** The excerpt extractors (search_history.py lines 325-416): shell commands
    run, files touched, the problem and solution excerpts and the topic tags,
    all pure functions of a conversation's messages. */
module Excerpts {
  import opened Wrappers
  import opened Strings
  import opened Content
  import opened Sessions
  import opened Sorting
  import Scoring

  const ProblemPlaceholder := "No problem description found"
  const SolutionPlaceholder := "No solution found"
  const ProblemLength := 200
  const SolutionLength := 300
  const MaxFiles := 10
  const MaxTopics := 5
  const MaxQuoted := 3
  const TopicWindow := 3

  // ---------------------------------------------------------------------
  // Commands

  predicate IsBash(t: ToolUse) {
    t.name == Some("Bash")
  }

  function CommandsOf(tools: seq<ToolUse>): seq<string> {
    if |tools| == 0 then []
    else
      var cmd := Lookup(tools[0].input, "command");
      (if IsBash(tools[0]) && cmd != "" then [cmd] else []) + CommandsOf(tools[1..])
  }

  function BashCommands(msgs: seq<Message>): seq<string> {
    if |msgs| == 0 then [] else CommandsOf(msgs[0].toolUses) + BashCommands(msgs[1..])
  }

  /** `extract_bash_commands`: the non-empty commands of Bash tool uses. */
  function ExtractBashCommands(c: Conversation): (r: seq<string>)
    ensures forall k :: 0 <= k < |r| ==> r[k] != ""
  {
    BashCommandsNonEmpty(c.messages);
    BashCommands(c.messages)
  }

  lemma {:induction false} BashCommandsNonEmpty(msgs: seq<Message>)
    ensures forall k :: 0 <= k < |BashCommands(msgs)| ==> BashCommands(msgs)[k] != ""
    decreases |msgs|
  {
    if |msgs| > 0 {
      CommandsNonEmpty(msgs[0].toolUses);
      BashCommandsNonEmpty(msgs[1..]);
    }
  }

  lemma {:induction false} CommandsNonEmpty(tools: seq<ToolUse>)
    ensures forall k :: 0 <= k < |CommandsOf(tools)| ==> CommandsOf(tools)[k] != ""
    decreases |tools|
  {
    if |tools| > 0 {
      CommandsNonEmpty(tools[1..]);
    }
  }

  /** The message ran `cmd` through a Bash tool use. */
  predicate RunsCommand(m: Message, cmd: string) {
    exists t :: t in m.toolUses && IsBash(t) && Lookup(t.input, "command") == cmd
  }

  lemma {:induction false} CommandsOfMembers(tools: seq<ToolUse>, cmd: string)
    ensures cmd in CommandsOf(tools) <==>
              cmd != "" && exists t :: t in tools && IsBash(t) && Lookup(t.input, "command") == cmd
    decreases |tools|
  {
    if |tools| > 0 {
      CommandsOfMembers(tools[1..], cmd);
      assert tools == [tools[0]] + tools[1..];
    }
  }

  /** A string is among the commands exactly when it is non-empty and some
      message ran it through a Bash tool use. */
  lemma {:induction false} BashCommandsMembers(msgs: seq<Message>, cmd: string)
    ensures cmd in BashCommands(msgs) <==> cmd != "" && exists m :: m in msgs && RunsCommand(m, cmd)
    decreases |msgs|
  {
    if |msgs| > 0 {
      var m0 := msgs[0];
      BashCommandsMembers(msgs[1..], cmd);
      CommandsOfMembers(m0.toolUses, cmd);
      assert cmd in BashCommands(msgs) <==> cmd in CommandsOf(m0.toolUses) || cmd in BashCommands(msgs[1..]);
      if cmd in CommandsOf(m0.toolUses) {
        assert RunsCommand(m0, cmd) && m0 in msgs;
      }
      if cmd in BashCommands(msgs[1..]) {
        var m :| m in msgs[1..] && RunsCommand(m, cmd);
        assert m in msgs;
      }
      if cmd != "" && exists m :: m in msgs && RunsCommand(m, cmd) {
        var m :| m in msgs && RunsCommand(m, cmd);
        if m != m0 {
          assert m in msgs[1..];
        }
      }
    }
  }

  /** Commands follow message order: those of `a + b` are those of `a`, then those of `b`. */
  lemma {:induction false} BashCommandsAppend(a: seq<Message>, b: seq<Message>)
    ensures BashCommands(a + b) == BashCommands(a) + BashCommands(b)
    decreases |a|
  {
    if |a| == 0 {
      assert a + b == b;
    } else {
      assert (a + b)[1..] == a[1..] + b;
      BashCommandsAppend(a[1..], b);
    }
  }

  // ---------------------------------------------------------------------
  // Files touched

  predicate IsFileTool(t: ToolUse) {
    t.name == Some("Read") || t.name == Some("Write") || t.name == Some("Edit")
  }

  /** What one tool use contributes: the base name of a read/written/edited
      file, or a glob pattern marked `glob:`; empty fields contribute nothing. */
  function TouchedBy(t: ToolUse): seq<string> {
    if IsFileTool(t) then
      var path := Lookup(t.input, "file_path");
      if path != "" then [AfterLast(path, '/')] else []
    else if t.name == Some("Glob") then
      var pattern := Lookup(t.input, "pattern");
      if pattern != "" then ["glob:" + pattern] else []
    else []
  }

  function TouchedInTools(tools: seq<ToolUse>): seq<string> {
    if |tools| == 0 then [] else TouchedBy(tools[0]) + TouchedInTools(tools[1..])
  }

  function Touched(msgs: seq<Message>): seq<string> {
    if |msgs| == 0 then [] else TouchedInTools(msgs[0].toolUses) + Touched(msgs[1..])
  }

  /** `extract_files_touched`: at most ten distinct entries in increasing
      string order, each touched by the conversation, and any touched entry
      left out is larger than every entry kept (so there are ten of them). */
  function ExtractFilesTouched(c: Conversation): (r: seq<string>)
    ensures |r| <= MaxFiles
    ensures StrictlySorted(r)
    ensures forall f :: f in r ==> f in Touched(c.messages)
    ensures forall f :: f in Touched(c.messages) && f !in r ==>
              |r| == MaxFiles && forall k :: 0 <= k < |r| ==> Less(r[k], f)
  {
    SmallestDistinct(Touched(c.messages), MaxFiles)
  }

  // ---------------------------------------------------------------------
  // Problem and solution excerpts

  predicate LooksStructured(s: string) {
    StartsWith(s, "[") || StartsWith(s, "{")
  }

  /** A user message with content whose stripped text does not start like a JSON array or object. */
  predicate IsProblemCandidate(m: Message) {
    m.role == User && m.content != "" && !LooksStructured(Strip(m.content))
  }

  /** The index of the first problem candidate at or after `from`, if any. */
  function FirstProblem(msgs: seq<Message>, from: nat): (r: Option<nat>)
    requires from <= |msgs|
    ensures r.None? <==> forall i :: from <= i < |msgs| ==> !IsProblemCandidate(msgs[i])
    ensures r.Some? ==> from <= r.value < |msgs| && IsProblemCandidate(msgs[r.value])
                        && forall j :: from <= j < r.value ==> !IsProblemCandidate(msgs[j])
  {
    FirstWhere(msgs, IsProblemCandidate, from)
  }

  /** The excerpt shown for a candidate message: its stripped content, cut to `n` characters plus `...`. */
  function Excerpt(m: Message, n: nat): (r: string)
    ensures |r| <= n + 3
    ensures |Strip(m.content)| <= n ==> r == Strip(m.content)
    ensures |Strip(m.content)| > n ==> r == Strip(m.content)[..n] + "..."
  {
    Shorten(Strip(m.content), n)
  }

  /** `extract_problem_excerpt`: the summary when it is non-empty; otherwise
      the stripped content of the first user message that does not start
      like structured data, cut to 200 characters plus `...`; otherwise the
      placeholder. */
  function ExtractProblemExcerpt(c: Conversation): (r: string)
    ensures Scoring.HasText(c.summary) ==> r == c.summary.value
    ensures !Scoring.HasText(c.summary) ==> |r| <= ProblemLength + 3
    ensures !Scoring.HasText(c.summary) && (forall i :: 0 <= i < |c.messages| ==> !IsProblemCandidate(c.messages[i]))
            ==> r == ProblemPlaceholder
    ensures !Scoring.HasText(c.summary) && (exists i :: 0 <= i < |c.messages| && IsProblemCandidate(c.messages[i])) ==>
              exists i :: 0 <= i < |c.messages| && IsProblemCandidate(c.messages[i])
                          && (forall j :: 0 <= j < i ==> !IsProblemCandidate(c.messages[j]))
                          && r == Excerpt(c.messages[i], ProblemLength)
  {
    if c.summary.Some? && c.summary.value != "" then c.summary.value
    else
      match FirstProblem(c.messages, 0)
      case Some(i) => Excerpt(c.messages[i], ProblemLength)
      case None => ProblemPlaceholder
  }

  predicate IsSolutionCandidate(m: Message) {
    m.role == Assistant && m.content != ""
  }

  /** The index of the last solution candidate, if any. */
  function LastSolution(msgs: seq<Message>): (r: Option<nat>)
    ensures r.None? ==> forall i :: 0 <= i < |msgs| ==> !IsSolutionCandidate(msgs[i])
    ensures r.Some? ==> r.value < |msgs| && IsSolutionCandidate(msgs[r.value])
                        && forall j :: r.value < j < |msgs| ==> !IsSolutionCandidate(msgs[j])
    decreases |msgs|
  {
    if |msgs| == 0 then None
    else if IsSolutionCandidate(msgs[|msgs| - 1]) then Some(|msgs| - 1)
    else
      var init := msgs[..|msgs| - 1];
      assert forall i :: 0 <= i < |init| ==> init[i] == msgs[i];
      LastSolution(init)
  }

  /** `extract_solution_excerpt`: the stripped content of the last assistant
      message with content among the matched messages, cut to 300
      characters plus `...`, or the placeholder when there is none. */
  function ExtractSolutionExcerpt(matched: seq<Message>): (r: string)
    ensures |r| <= SolutionLength + 3
    ensures (forall i :: 0 <= i < |matched| ==> !IsSolutionCandidate(matched[i])) ==> r == SolutionPlaceholder
    ensures (exists i :: 0 <= i < |matched| && IsSolutionCandidate(matched[i])) ==>
              exists i :: 0 <= i < |matched| && IsSolutionCandidate(matched[i])
                          && (forall j :: i < j < |matched| ==> !IsSolutionCandidate(matched[j]))
                          && r == Excerpt(matched[i], SolutionLength)
  {
    match LastSolution(matched)
    case Some(i) => Excerpt(matched[i], SolutionLength)
    case None => SolutionPlaceholder
  }

  // ---------------------------------------------------------------------
  // Topics

  /** `re.findall(r'"([^"]+)"', s)`: the non-empty texts between pairs of
      double quotes, scanning left to right. Each term stood in `s` between
      two double quotes. */
  function QuotedTerms(s: string): (r: seq<string>)
    ensures forall k :: 0 <= k < |r| ==> |r[k]| > 0 && '"' !in r[k]
    ensures forall k :: 0 <= k < |r| ==> Contains(s, "\"" + r[k] + "\"")
    decreases |s|
  {
    if |s| == 0 then []
    else if s[0] != '"' then
      var r := QuotedTerms(s[1..]);
      ContainsInSuffixAll(s, 1, r);
      r
    else
      var rest := s[1..];
      if '"' !in rest then []
      else
        var k := IndexOf(rest, '"');
        if k == 0 then
          var r := QuotedTerms(rest);
          ContainsInSuffixAll(s, 1, r);
          r
        else
          var tail := QuotedTerms(rest[k + 1..]);
          assert rest[k + 1..] == s[k + 2..];
          ContainsInSuffixAll(s, k + 2, tail);
          QuotedHead(s, k);
          [rest[..k]] + tail
  }

  /** Text between a quote at the start of `s` and a later quote stands quoted in `s`. */
  lemma QuotedHead(s: string, k: nat)
    requires k + 2 <= |s| && s[0] == '"' && s[k + 1] == '"'
    ensures Contains(s, "\"" + s[1..][..k] + "\"")
  {
    var q := "\"" + s[1..][..k] + "\"";
    assert s[0..k + 2] == q;
    assert OccursAt(s, q, 0);
  }

  /** A quoted term of a suffix of `s` is a quoted term of `s`. */
  lemma ContainsInSuffixAll(s: string, d: nat, terms: seq<string>)
    requires d <= |s|
    requires forall k :: 0 <= k < |terms| ==> Contains(s[d..], "\"" + terms[k] + "\"")
    ensures forall k :: 0 <= k < |terms| ==> Contains(s, "\"" + terms[k] + "\"")
  {
    forall k | 0 <= k < |terms| ensures Contains(s, "\"" + terms[k] + "\"") {
      ContainsInSuffix(s, d, "\"" + terms[k] + "\"");
    }
  }

  lemma ContainsInSuffix(s: string, d: nat, w: string)
    requires d <= |s|
    requires Contains(s[d..], w)
    ensures Contains(s, w)
  {
    var i :| 0 <= i <= |s[d..]| - |w| && OccursAt(s[d..], w, i);
    assert s[d + i..d + i + |w|] == s[d..][i..i + |w|];
    assert OccursAt(s, w, d + i);
  }

  /** The scan finds a quoted term that follows quote-free text, and then
      goes on after its closing quote. */
  lemma {:induction false} QuotedTermsFindsPair(p: string, w: string, t: string)
    requires '"' !in p && '"' !in w && |w| > 0
    ensures QuotedTerms(p + "\"" + w + "\"" + t) == [w] + QuotedTerms(t)
    decreases |p|
  {
    var s := p + "\"" + w + "\"" + t;
    if |p| == 0 {
      assert s == "\"" + w + "\"" + t;
      var rest := s[1..];
      assert rest == w + "\"" + t;
      assert rest[|w|] == '"';
      assert IndexOf(rest, '"') == |w|;
      assert rest[..|w|] == w;
      assert rest[|w| + 1..] == t;
    } else {
      assert s[0] == p[0];
      assert s[1..] == p[1..] + "\"" + w + "\"" + t;
      QuotedTermsFindsPair(p[1..], w, t);
    }
  }

  /** The action words looked for, and the tag each one adds. */
  const Keywords: seq<(string, string)> :=
    [("add", "adding"), ("fix", "fixing"), ("implement", "implementing"),
     ("refactor", "refactoring"), ("test", "testing"), ("debug", "debugging")]

  function TagsFrom(text: string, keywords: seq<(string, string)>): seq<string> {
    if |keywords| == 0 then []
    else (if Contains(text, keywords[0].0) then [keywords[0].1] else []) + TagsFrom(text, keywords[1..])
  }

  /** The first user message among the first three messages. */
  function TopicSource(msgs: seq<Message>): (r: Option<Message>)
    ensures r.Some? ==> r.value.role == User && r.value in msgs[..Min(TopicWindow, |msgs|)]
    ensures r.None? ==> forall i :: 0 <= i < Min(TopicWindow, |msgs|) ==> msgs[i].role != User
    ensures r.Some? ==> exists i :: 0 <= i < Min(TopicWindow, |msgs|) && msgs[i] == r.value
                                    && forall j :: 0 <= j < i ==> msgs[j].role != User
  {
    FirstUser(msgs[..Min(TopicWindow, |msgs|)])
  }

  function FirstUser(msgs: seq<Message>): (r: Option<Message>)
    ensures r.Some? ==> r.value.role == User && r.value in msgs
    ensures r.None? ==> forall i :: 0 <= i < |msgs| ==> msgs[i].role != User
    ensures r.Some? ==> exists i :: 0 <= i < |msgs| && msgs[i] == r.value
                                    && forall j :: 0 <= j < i ==> msgs[j].role != User
    decreases |msgs|
  {
    if |msgs| == 0 then None
    else if msgs[0].role == User then Some(msgs[0])
    else
      assert forall i :: 0 < i < |msgs| ==> msgs[i] == msgs[1..][i - 1];
      var r := FirstUser(msgs[1..]);
      assert r.Some? ==> exists i :: 0 <= i < |msgs| && msgs[i] == r.value
                                     && forall j :: 0 <= j < i ==> msgs[j].role != User by {
        if r.Some? {
          var i :| 0 <= i < |msgs[1..]| && msgs[1..][i] == r.value
                   && forall j :: 0 <= j < i ==> msgs[1..][j].role != User;
          assert msgs[i + 1] == r.value;
        }
      }
      r
  }

  /** The tag candidates: up to three quoted terms of the lower-cased source
      message, then the tags of the action words it contains. */
  function TopicCandidates(c: Conversation): seq<string> {
    match TopicSource(c.messages)
    case None => []
    case Some(m) =>
      var text := Lower(m.content);
      TakePrefix(QuotedTerms(text), MaxQuoted) + TagsFrom(text, Keywords)
  }

  /** `extract_topics`: at most five distinct tags, each a candidate. The
      source returns them in set-iteration order, which is unspecified; the
      model lists the smallest five in string order. */
  function ExtractTopics(c: Conversation): (r: seq<string>)
    ensures |r| <= MaxTopics
    ensures StrictlySorted(r)
    ensures forall t :: t in r ==> t in TopicCandidates(c)
    ensures TopicSource(c.messages).None? ==> r == []
    ensures forall t :: t in TopicCandidates(c) && t !in r ==> |r| == MaxTopics
  {
    SmallestDistinct(TopicCandidates(c), MaxTopics)
  }

  /** Every tag is a non-empty quoted term of the source message (lower-cased)
      or the tag of an action word the message contains. */
  lemma TopicsComeFromFirstUserMessage(c: Conversation, t: string)
    requires t in ExtractTopics(c)
    ensures TopicSource(c.messages).Some?
    ensures var text := Lower(TopicSource(c.messages).value.content);
            t in QuotedTerms(text) || exists k :: 0 <= k < |Keywords| && Contains(text, Keywords[k].0) && t == Keywords[k].1
  {
    var m := TopicSource(c.messages).value;
    var text := Lower(m.content);
    var quoted := TakePrefix(QuotedTerms(text), MaxQuoted);
    assert t in quoted + TagsFrom(text, Keywords);
    if t in TagsFrom(text, Keywords) {
      TagsMembers(text, Keywords, t);
    }
  }

  lemma {:induction false} TagsMembers(text: string, keywords: seq<(string, string)>, t: string)
    requires t in TagsFrom(text, keywords)
    ensures exists k :: 0 <= k < |keywords| && Contains(text, keywords[k].0) && t == keywords[k].1
    decreases |keywords|
  {
    if !(Contains(text, keywords[0].0) && t == keywords[0].1) {
      TagsMembers(text, keywords[1..], t);
      var k :| 0 <= k < |keywords[1..]| && Contains(text, keywords[1..][k].0) && t == keywords[1..][k].1;
      assert keywords[k + 1] == keywords[1..][k];
    }
  }
}

=== FILE: project_path.dfy ===
/** The directory-name encoding of project paths (search_history.py lines 68-79):
    a path's `/` separators become `-`, with a leading `-` marking the root.
    The mapping is lossy: a `-` inside a path component decodes as `/`. */
module ProjectPath {
  import opened Strings

  /** The path without its leading `/`, if it has one. */
  function Relative(path: string): string {
    if StartsWith(path, "/") then path[1..] else path
  }

  function EncodeProjectPath(path: string): (r: string)
    ensures StartsWith(r, "-")
    ensures '/' !in r
    ensures |r| == |Relative(path)| + 1
  {
    "-" + ReplaceChar(Relative(path), '/', '-')
  }

  /** A directory name in encoded form (a leading `-` and no `/`) decodes to
      an absolute path, and encoding that path gives the name back. */
  function DecodeProjectPath(encoded: string): (r: string)
    ensures '-' !in r
    ensures StartsWith(encoded, "-") ==> StartsWith(r, "/")
    ensures StartsWith(encoded, "-") && '/' !in encoded ==> EncodeProjectPath(r) == encoded
  {
    if StartsWith(encoded, "-") then
      var r := "/" + ReplaceChar(encoded[1..], '-', '/');
      EncodesBack(encoded, r);
      r
    else ReplaceChar(encoded, '-', '/')
  }

  /** The absolute path an encoded name decodes to encodes back to the name,
      when the name holds no `/`. */
  lemma EncodesBack(encoded: string, r: string)
    requires StartsWith(encoded, "-") && r == "/" + ReplaceChar(encoded[1..], '-', '/')
    ensures '/' !in encoded ==> EncodeProjectPath(r) == encoded
  {
    if '/' !in encoded {
      assert Relative(r) == ReplaceChar(encoded[1..], '-', '/');
      assert forall i :: 1 <= i < |encoded| ==> encoded[i] != '/';
      assert ReplaceChar(Relative(r), '/', '-') == encoded[1..];
      assert encoded == "-" + encoded[1..];
    }
  }

  /** Decoding an encoded path gives the absolute form of the path with every
      `-` turned into `/`; so an absolute path survives the round trip exactly
      when it contains no `-`. */
  lemma DecodeEncode(path: string)
    ensures DecodeProjectPath(EncodeProjectPath(path)) == "/" + ReplaceChar(Relative(path), '-', '/')
    ensures '-' !in path ==> DecodeProjectPath(EncodeProjectPath(path)) == "/" + Relative(path)
    ensures StartsWith(path, "/") ==> (DecodeProjectPath(EncodeProjectPath(path)) == path <==> '-' !in path)
  {
    var rel := Relative(path);
    var e := EncodeProjectPath(path);
    assert e[1..] == ReplaceChar(rel, '/', '-');
    var d := DecodeProjectPath(e);
    assert d == "/" + ReplaceChar(rel, '-', '/');
    if '-' !in path {
      assert forall i :: 0 <= i < |rel| ==> rel[i] in path;
      assert ReplaceChar(rel, '-', '/') == rel;
    }
    if StartsWith(path, "/") {
      assert path == "/" + rel;
      if '-' in path {
        var i :| 0 <= i < |path| && path[i] == '-';
        assert d[i] == '/';
      }
    }
  }
}

=== FILE: scoring.dfy ===
/** The relevance score (search_history.py lines 288-322): a bag-of-words
    overlap sum. With `q` the query's token set, the summary contributes
    3.0 · |q ∩ tokens(summary)| / |q|, and each message with a non-empty
    overlap contributes |q ∩ tokens(content)| / |q|, times 1.5 for a user
    message and times 1.3 when it carries a tool use. Scores are reals;
    floating-point rounding is not modelled. */
module Scoring {
  import opened Wrappers
  import opened Sessions
  import opened Tokenizer

  const SummaryWeight: real := 3.0
  const UserBoost: real := 1.5
  const ToolUseBoost: real := 1.3

  /** Python truthiness of an optional string. */
  predicate HasText(s: Option<string>) {
    s.Some? && s.value != ""
  }

  /** How many query tokens occur in `text`. */
  function Overlap(q: set<string>, text: string): (n: nat)
    ensures n <= |q|
  {
    SubsetCardinality(q * Tokenize(text), q);
    |q * Tokenize(text)|
  }

  lemma {:induction false} SubsetCardinality<T>(a: set<T>, b: set<T>)
    requires a <= b
    ensures |a| <= |b|
    decreases |a|
  {
    if a != {} {
      var x :| x in a;
      SubsetCardinality(a - {x}, b - {x});
    }
  }

  /** The summary's term: its share of the query tokens, times 3.0. */
  function SummaryScore(q: set<string>, summary: Option<string>): (s: real)
    requires |q| > 0
    ensures 0.0 <= s <= SummaryWeight
    ensures s > 0.0 <==> HasText(summary) && Overlap(q, summary.value) > 0
  {
    if HasText(summary) then
      var o := Overlap(q, summary.value);
      var share := o as real / |q| as real;
      assert 0.0 <= share <= 1.0 && (o > 0 ==> share > 0.0) by {
        assert share * (|q| as real) == o as real;
      }
      share * SummaryWeight
    else 0.0
  }

  /** The weight of one message. */
  function MessageScore(q: set<string>, m: Message): (s: real)
    requires |q| > 0
    ensures 0.0 <= s <= UserBoost * ToolUseBoost
    ensures s > 0.0 <==> Overlap(q, m.content) > 0
  {
    var overlap := Overlap(q, m.content);
    var base := overlap as real / |q| as real;
    assert 0.0 <= base <= 1.0 by {
      assert base * (|q| as real) == overlap as real;
    }
    assert overlap > 0 ==> base > 0.0;
    var afterRole := if m.role == User then base * UserBoost else base;
    if |m.toolUses| > 0 then afterRole * ToolUseBoost else afterRole
  }

  /** The sum of the message weights. */
  function MessagesScore(q: set<string>, msgs: seq<Message>): real
    requires |q| > 0
    decreases |msgs|
  {
    if |msgs| == 0 then 0.0 else MessageScore(q, msgs[0]) + MessagesScore(q, msgs[1..])
  }

  /** The messages sharing at least one token with the query, in order. */
  function Matched(q: set<string>, msgs: seq<Message>): seq<Message>
    decreases |msgs|
  {
    if |msgs| == 0 then []
    else (if Overlap(q, msgs[0].content) > 0 then [msgs[0]] else []) + Matched(q, msgs[1..])
  }

  datatype Scored = Scored(score: real, matched: seq<Message>)

  /** The loop over messages, accumulating as the source does. */
  function ScoreLoop(q: set<string>, msgs: seq<Message>, total: real, matched: seq<Message>): Scored
    requires |q| > 0
    decreases |msgs|
  {
    if |msgs| == 0 then Scored(total, matched)
    else
      var m := msgs[0];
      if Overlap(q, m.content) > 0 then ScoreLoop(q, msgs[1..], total + MessageScore(q, m), matched + [m])
      else ScoreLoop(q, msgs[1..], total, matched)
  }

  lemma {:induction false} ScoreLoopSums(q: set<string>, msgs: seq<Message>, total: real, matched: seq<Message>)
    requires |q| > 0
    ensures ScoreLoop(q, msgs, total, matched) == Scored(total + MessagesScore(q, msgs), matched + Matched(q, msgs))
    decreases |msgs|
  {
    if |msgs| == 0 {
      assert matched + [] == matched;
    } else {
      var m := msgs[0];
      var w := MessageScore(q, m);
      assert MessagesScore(q, msgs) == w + MessagesScore(q, msgs[1..]);
      if Overlap(q, m.content) > 0 {
        assert Matched(q, msgs) == [m] + Matched(q, msgs[1..]);
        ScoreLoopSums(q, msgs[1..], total + w, matched + [m]);
        assert matched + [m] + Matched(q, msgs[1..]) == matched + Matched(q, msgs);
      } else {
        assert w == 0.0;
        assert Matched(q, msgs) == Matched(q, msgs[1..]);
        ScoreLoopSums(q, msgs[1..], total, matched);
      }
    }
  }

  /** The message weights sum to a non-negative value, positive exactly when
      some message matched, and bounded by the largest single weight per message. */
  lemma {:induction false} MessagesScoreBounds(q: set<string>, msgs: seq<Message>)
    requires |q| > 0
    ensures 0.0 <= MessagesScore(q, msgs) <= UserBoost * ToolUseBoost * |msgs| as real
    ensures MessagesScore(q, msgs) > 0.0 <==> |Matched(q, msgs)| > 0
    decreases |msgs|
  {
    if |msgs| > 0 {
      MessagesScoreBounds(q, msgs[1..]);
    }
  }

  /** `calculate_relevance_score`. An empty query token set gives (0, []).
      Otherwise the score is the summary term plus the message weights, the
      matched list is the in-order subsequence of messages that share a
      token with the query, the score is never negative, and it is positive
      exactly when the summary or some message shares a token with the query. */
  function CalculateRelevanceScore(query: string, c: Conversation): (r: Scored)
    ensures |Tokenize(query)| == 0 ==> r == Scored(0.0, [])
    ensures |Tokenize(query)| > 0 ==>
              && r.score == SummaryScore(Tokenize(query), c.summary) + MessagesScore(Tokenize(query), c.messages)
              && r.matched == Matched(Tokenize(query), c.messages)
    ensures 0.0 <= r.score <= SummaryWeight + UserBoost * ToolUseBoost * |c.messages| as real
    ensures r.score > 0.0 <==>
              (|Tokenize(query)| > 0 &&
               ((HasText(c.summary) && Overlap(Tokenize(query), c.summary.value) > 0) || |r.matched| > 0))
  {
    var q := Tokenize(query);
    if |q| == 0 then Scored(0.0, [])
    else
      var total := SummaryScore(q, c.summary);
      ScoreLoopSums(q, c.messages, total, []);
      MessagesScoreBounds(q, c.messages);
      assert [] + Matched(q, c.messages) == Matched(q, c.messages);
      ScoreLoop(q, c.messages, total, [])
  }

  /** Every matched message is one of the conversation's messages and shares
      a token with the query; every message sharing a token is matched. */
  lemma {:induction false} MatchedMembers(q: set<string>, msgs: seq<Message>, m: Message)
    ensures m in Matched(q, msgs) <==> m in msgs && Overlap(q, m.content) > 0
    decreases |msgs|
  {
    if |msgs| > 0 {
      MatchedMembers(q, msgs[1..], m);
      assert msgs == [msgs[0]] + msgs[1..];
    }
  }
}

=== FILE: search.dfy ===
/** The pure tails of `search_conversations` and `get_conversations_for_date`
    (search_history.py lines 419-483). The session files arrive already
    enumerated, in directory order and then file order within a directory;
    files whose name starts with `agent-` are skipped. */
module Search {
  import opened Wrappers
  import opened Strings
  import opened Sessions
  import opened Scoring
  import opened Dates
  import opened Excerpts
  import opened Sorting

  datatype SearchResult = SearchResult(
    conversation: Conversation,
    score: real,
    matchedMessages: seq<Message>,
    problemExcerpt: string,
    solutionExcerpt: string,
    commandsRun: seq<string>)

  predicate IsAgentFile(f: SessionFile) {
    StartsWith(f.name, "agent-")
  }

  /** What one file contributes to a search: nothing when it is an agent
      file, yields no conversation, falls outside the date filter or scores
      zero; otherwise its scored result with excerpts. */
  function ResultFor(f: SessionFile, query: string, filter: Option<Interval>): (r: Option<SearchResult>)
    ensures r.Some? ==> r.value.score > 0.0 && ConversationInDateRange(r.value.conversation, filter)
                        && !IsAgentFile(f) && ParseConversationFile(f) == Some(r.value.conversation)
    ensures r.Some? ==> r.value.score == CalculateRelevanceScore(query, r.value.conversation).score
                        && r.value.matchedMessages == CalculateRelevanceScore(query, r.value.conversation).matched
    ensures r.Some? ==> r.value.problemExcerpt == ExtractProblemExcerpt(r.value.conversation)
                        && r.value.solutionExcerpt == ExtractSolutionExcerpt(r.value.matchedMessages)
                        && r.value.commandsRun == ExtractBashCommands(r.value.conversation)
  {
    if IsAgentFile(f) then None
    else
      match ParseConversationFile(f)
      case None => None
      case Some(c) =>
        if !ConversationInDateRange(c, filter) then None
        else
          var scored := CalculateRelevanceScore(query, c);
          if scored.score > 0.0 then
            Some(SearchResult(c, scored.score, scored.matched, ExtractProblemExcerpt(c),
                              ExtractSolutionExcerpt(scored.matched), ExtractBashCommands(c)))
          else None
  }

  /** The converse of `ResultFor`'s contract: a non-agent file whose
      conversation parses, falls inside the date filter and scores above zero
      always yields a result. */
  lemma ResultForComplete(f: SessionFile, query: string, filter: Option<Interval>)
    ensures (!IsAgentFile(f) && ParseConversationFile(f).Some?
             && ConversationInDateRange(ParseConversationFile(f).value, filter)
             && CalculateRelevanceScore(query, ParseConversationFile(f).value).score > 0.0)
            ==> ResultFor(f, query, filter).Some?
  {
  }

  /** The results in enumeration order, before sorting. */
  function Collect(files: seq<SessionFile>, query: string, filter: Option<Interval>): seq<SearchResult> {
    FilterMap(files, f => ResultFor(f, query, filter))
  }

  lemma CollectMembers(files: seq<SessionFile>, query: string, filter: Option<Interval>, x: SearchResult)
    ensures x in Collect(files, query, filter) <==> exists f :: f in files && ResultFor(f, query, filter) == Some(x)
  {
    FilterMapMembers(files, f => ResultFor(f, query, filter), x);
  }

  /** Higher scores first; equal scores are equivalent. */
  predicate ScoreAtLeast(a: SearchResult, b: SearchResult) {
    a.score >= b.score
  }

  lemma ScoreOrder()
    ensures TotalPreorder(ScoreAtLeast)
  {
  }

  /** Stable-sort by descending score, then Python's `[:limit]`. */
  function Rank(found: seq<SearchResult>, limit: int): (r: seq<SearchResult>)
    ensures 0 <= limit ==> |r| == Min(limit, |found|)
    ensures multiset(r) <= multiset(found)
    ensures SortedBy(r, ScoreAtLeast)
    ensures forall v :: Peers(r, v, ScoreAtLeast) <= Peers(found, v, ScoreAtLeast)
    ensures forall x :: x in found && x !in r ==> forall k :: 0 <= k < |r| ==> r[k].score >= x.score
  {
    ScoreOrder();
    var sorted := SortBy(found, ScoreAtLeast);
    assert |sorted| == |found| by {
      assert |multiset(sorted)| == |multiset(found)|;
    }
    var r := TakePrefix(sorted, limit);
    SortedPrefix(found, sorted, |r|, ScoreAtLeast);
    r
  }

  /** `search_conversations` after enumeration: keep the files that yield a
      result, stable-sort them by descending score, keep the first `limit`
      (Python slicing, so a negative limit drops results from the end).
      Every result scores above zero and passes the date filter; scores do
      not increase along the list; results with equal scores keep their
      enumeration order; and any qualifying result left out scores no higher
      than every result kept. */
  function SearchConversations(files: seq<SessionFile>, query: string, limit: int, filter: Option<Interval>)
    : (r: seq<SearchResult>)
    ensures 0 <= limit ==> |r| == Min(limit, |Collect(files, query, filter)|)
    ensures forall k :: 0 <= k < |r| ==> r[k].score > 0.0 && ConversationInDateRange(r[k].conversation, filter)
    ensures multiset(r) <= multiset(Collect(files, query, filter))
    ensures SortedBy(r, ScoreAtLeast)
    ensures forall v :: Peers(r, v, ScoreAtLeast) <= Peers(Collect(files, query, filter), v, ScoreAtLeast)
    ensures forall x :: x in Collect(files, query, filter) && x !in r ==>
              forall k :: 0 <= k < |r| ==> r[k].score >= x.score
  {
    var found := Collect(files, query, filter);
    var r := Rank(found, limit);
    forall k | 0 <= k < |r| ensures r[k].score > 0.0 && ConversationInDateRange(r[k].conversation, filter) {
      assert r[k] in multiset(r);
      CollectMembers(files, query, filter, r[k]);
    }
    r
  }

  // ---------------------------------------------------------------------
  // Digest

  /** Earlier raw timestamp strings first; equal strings are equivalent. */
  predicate TimestampAtMost(a: Conversation, b: Conversation) {
    !Less(b.timestamp, a.timestamp)
  }

  lemma TimestampOrder()
    ensures TotalPreorder(TimestampAtMost)
    ensures forall a, b :: Equivalent(a, b, TimestampAtMost) <==> a.timestamp == b.timestamp
  {
    forall a: Conversation, b: Conversation ensures TimestampAtMost(a, b) || TimestampAtMost(b, a) {
      if Less(a.timestamp, b.timestamp) {
        LessAsymmetric(a.timestamp, b.timestamp);
      }
    }
    forall a: Conversation, b: Conversation, c: Conversation
      | TimestampAtMost(a, b) && TimestampAtMost(b, c)
      ensures TimestampAtMost(a, c)
    {
      LessTotal(a.timestamp, b.timestamp);
      LessTotal(b.timestamp, c.timestamp);
      if a.timestamp != b.timestamp && b.timestamp != c.timestamp {
        LessTransitive(a.timestamp, b.timestamp, c.timestamp);
        LessAsymmetric(a.timestamp, c.timestamp);
      } else if a.timestamp != b.timestamp {
        LessAsymmetric(a.timestamp, b.timestamp);
      }
    }
    forall a: Conversation, b: Conversation ensures Equivalent(a, b, TimestampAtMost) <==> a.timestamp == b.timestamp {
      LessTotal(a.timestamp, b.timestamp);
      LessIrreflexive(a.timestamp);
    }
  }

  /** What one file contributes to the digest of `day`: its conversation,
      when it is not an agent file and its timestamp falls on that day. */
  function DayEntry(f: SessionFile, day: int): Option<Conversation> {
    if IsAgentFile(f) then None
    else
      match ParseConversationFile(f)
      case None => None
      case Some(c) =>
        if ConversationInDateRange(c, Some(Interval(DayStart(day), DayStart(day) + MicrosPerDay)))
        then Some(c) else None
  }

  /** The conversations of the files, in enumeration order, that fall on `day`. */
  function OnDay(files: seq<SessionFile>, day: int): seq<Conversation> {
    FilterMap(files, f => DayEntry(f, day))
  }

  /** A conversation is on the day's list exactly when a non-agent file
      yields it and its timestamp parses to an instant on that day. */
  lemma OnDayMembers(files: seq<SessionFile>, day: int, c: Conversation)
    ensures c in OnDay(files, day) <==>
              (exists f :: f in files && !IsAgentFile(f) && ParseConversationFile(f) == Some(c))
              && ParseTimestamp(c.timestamp).Some? && DayOf(ParseTimestamp(c.timestamp).value) == day
  {
    DaySpanAdmits(c, day, day);
    assert DaySpan(day, day) == Interval(DayStart(day), DayStart(day) + MicrosPerDay);
    FilterMapMembers(files, f => DayEntry(f, day), c);
  }

  /** `get_conversations_for_date` after enumeration: the conversations on
      the day, stable-sorted by their raw timestamp string. `day` is the day
      of a datetime, so it lies within 0001-01-01 through 9999-12-31; on the
      last of those the midnight ending the day overflows, as `start +
      timedelta(days=1)` raises there. */
  function GetConversationsForDate(files: seq<SessionFile>, day: int): (r: Result<seq<Conversation>, DateError>)
    requires 1 <= day <= MaxDay
    ensures r.Failure? <==> day == MaxDay
    ensures r.Failure? ==> r.error == OutOfRange
    ensures r.Success? ==> multiset(r.value) == multiset(OnDay(files, day))
    ensures r.Success? ==> forall k :: 0 <= k < |r.value| ==>
              ParseTimestamp(r.value[k].timestamp).Some? && DayOf(ParseTimestamp(r.value[k].timestamp).value) == day
    ensures r.Success? ==> forall i, j :: 0 <= i < j < |r.value| ==> !Less(r.value[j].timestamp, r.value[i].timestamp)
    ensures r.Success? ==> forall v :: Peers(r.value, v, TimestampAtMost) == Peers(OnDay(files, day), v, TimestampAtMost)
  {
    if MaxDay < day + 1 then Failure(OutOfRange)
    else
      var sorted := SortByTimestamp(OnDay(files, day));
      assert forall k :: 0 <= k < |sorted| ==>
               ParseTimestamp(sorted[k].timestamp).Some? && DayOf(ParseTimestamp(sorted[k].timestamp).value) == day by {
        forall k | 0 <= k < |sorted|
          ensures ParseTimestamp(sorted[k].timestamp).Some? && DayOf(ParseTimestamp(sorted[k].timestamp).value) == day
        {
          assert sorted[k] in multiset(OnDay(files, day));
          OnDayMembers(files, day, sorted[k]);
        }
      }
      Success(sorted)
  }

  /** `conversations.sort(key=lambda c: c.timestamp)`: a stable sort by the raw timestamp string. */
  function SortByTimestamp(cs: seq<Conversation>): (r: seq<Conversation>)
    ensures multiset(r) == multiset(cs)
    ensures forall i, j :: 0 <= i < j < |r| ==> !Less(r[j].timestamp, r[i].timestamp)
    ensures forall v :: Peers(r, v, TimestampAtMost) == Peers(cs, v, TimestampAtMost)
  {
    TimestampOrder();
    SortBy(cs, TimestampAtMost)
  }
}

=== FILE: sessions.dfy ===
/** Session logs and the conversation builder (search_history.py lines 28-49
    and 216-280).

    A session file arrives as its directory name, file name, full path and
    the sequence of its already-decoded lines. The builder is the record fold
    of `parse_conversation_file`; its meaning is given independently by
    `ChatMessages`, `LastSummary`, `FirstBranch` and `FirstTimestamp`, and
    `ParseConversationFile` states that the fold computes exactly those. */
module Sessions {
  import opened Wrappers
  import opened Strings
  import opened Content
  import ProjectPath

  datatype Role = User | Assistant

  datatype Message = Message(
    uuid: Option<string>,
    parentUuid: Option<string>,
    role: Role,
    content: string,
    timestamp: Option<string>,
    toolUses: seq<ToolUse>,
    toolResults: seq<string>)

  datatype Conversation = Conversation(
    sessionId: string,
    filePath: string,
    summary: Option<string>,
    messages: seq<Message>,
    projectPath: string,
    gitBranch: Option<string>,
    timestamp: string)

  /** A record's `message` field: an object (missing counts as `{}`, whose
      content defaults to `''`), or another JSON value, on which `.get` raises. */
  datatype MessageField = MessageObject(content: Payload) | MessageNotObject

  /** One decoded line of a session log. For the optional string fields,
      None stands for JSON null; a missing key takes the source's default,
      which is `''` (Some("")) for `uuid` and `timestamp` and None for
      `parentUuid`, `gitBranch` and `summary`. */
  datatype Record =
    | Skipped
      // a blank line, or one that is not valid JSON
    | NonObject
      // valid JSON that is not an object: `entry.get` raises
    | Summary(summary: Option<string>)
    | Chat(role: Role, uuid: Option<string>, parentUuid: Option<string>,
           timestamp: Option<string>, gitBranch: Option<string>, message: MessageField)
    | OtherType
      // an object whose `type` is neither summary, user nor assistant

  datatype SessionFile = SessionFile(directory: string, name: string, path: string, records: seq<Record>)

  /** A record whose processing raises, so that the whole file yields nothing. */
  predicate Raises(r: Record) {
    r.NonObject? || (r.Chat? && r.message.MessageNotObject?)
  }

  predicate AnyRaises(rs: seq<Record>) {
    exists i :: 0 <= i < |rs| && Raises(rs[i])
  }

  /** `Path(name).stem`: the name without its last suffix. */
  function Stem(name: string): (r: string)
    ensures StartsWith(name, r)
    ensures r == name || (0 < |r| && |r| + 1 < |name| && name[|r|] == '.' && '.' !in name[|r| + 1..])
  {
    if '.' !in name then name
    else
      var i := |name| - |AfterLast(name, '.')| - 1;
      if 0 < i < |name| - 1 then name[..i] else name
  }

  /** The message a user/assistant record becomes. */
  function ToMessage(role: Role, uuid: Option<string>, parentUuid: Option<string>,
                     timestamp: Option<string>, content: Payload): (m: Message)
    ensures m.role == role && m.timestamp == timestamp
  {
    Message(uuid, parentUuid, role, ExtractTextContent(content), timestamp,
            ExtractToolUses(content), ExtractToolResults(content))
  }

  // ---------------------------------------------------------------------
  // The fold, as the source performs it

  datatype Acc =
    | Acc(messages: seq<Message>, summary: Option<string>, gitBranch: Option<string>,
          firstTimestamp: Option<string>)
    | Raised

  function Step(acc: Acc, r: Record): Acc {
    if acc.Raised? then Raised
    else
      match r
      case Skipped => acc
      case NonObject => Raised
      case Summary(s) => acc.(summary := s)
      case OtherType => acc
      case Chat(role, uuid, parent, ts, branch, field) =>
        var gitBranch := if acc.gitBranch.None? then branch else acc.gitBranch;
        var first := if acc.firstTimestamp.None? then ts else acc.firstTimestamp;
        match field
        case MessageNotObject => Raised
        case MessageObject(content) =>
          Acc(acc.messages + [ToMessage(role, uuid, parent, ts, content)], acc.summary, gitBranch, first)
  }

  function Fold(acc: Acc, rs: seq<Record>): Acc
    decreases |rs|
  {
    if |rs| == 0 then acc else Fold(Step(acc, rs[0]), rs[1..])
  }

  const Start := Acc([], None, None, None)

  // ---------------------------------------------------------------------
  // What the fold computes, stated record by record

  /** The messages of the user/assistant records, in file order. */
  function ChatMessages(rs: seq<Record>): seq<Message>
    decreases |rs|
  {
    if |rs| == 0 then []
    else
      var r := rs[|rs| - 1];
      ChatMessages(rs[..|rs| - 1])
      + (if r.Chat? && r.message.MessageObject?
         then [ToMessage(r.role, r.uuid, r.parentUuid, r.timestamp, r.message.content)] else [])
  }

  /** Whether any summary record is present. */
  predicate AnySummary(rs: seq<Record>) {
    exists i :: 0 <= i < |rs| && rs[i].Summary?
  }

  /** The value of the last summary record, or None when there is none. */
  function LastSummary(rs: seq<Record>): (s: Option<string>)
    ensures AnySummary(rs) ==> exists i :: 0 <= i < |rs| && rs[i].Summary? && s == rs[i].summary
                                && forall j :: i < j < |rs| ==> !rs[j].Summary?
    ensures !AnySummary(rs) ==> s.None?
    decreases |rs|
  {
    if |rs| == 0 then None
    else if rs[|rs| - 1].Summary? then rs[|rs| - 1].summary
    else
      var init := rs[..|rs| - 1];
      var s := LastSummary(init);
      LastSummaryPastOther(rs, init, s);
      s
  }

  /** The first value that is not None, or None. */
  function FirstSome<T>(xs: seq<Option<T>>): (r: Option<T>)
    ensures r.Some? <==> exists i :: 0 <= i < |xs| && xs[i].Some?
    ensures r.Some? ==> exists i :: 0 <= i < |xs| && xs[i] == r && forall j :: 0 <= j < i ==> xs[j].None?
    decreases |xs|
  {
    if |xs| == 0 then None
    else if xs[0].Some? then xs[0]
    else
      var r := FirstSome(xs[1..]);
      FirstSomePastNone(xs, r);
      r
  }

  /** A record other than a summary at the end leaves the last summary as it was. */
  lemma LastSummaryPastOther(rs: seq<Record>, init: seq<Record>, s: Option<string>)
    requires |rs| > 0 && !rs[|rs| - 1].Summary? && init == rs[..|rs| - 1]
    requires AnySummary(init) ==>
               exists i :: 0 <= i < |init| && init[i].Summary? && s == init[i].summary
                           && forall j :: i < j < |init| ==> !init[j].Summary?
    requires !AnySummary(init) ==> s.None?
    ensures AnySummary(rs) ==> exists i :: 0 <= i < |rs| && rs[i].Summary? && s == rs[i].summary
                                && forall j :: i < j < |rs| ==> !rs[j].Summary?
    ensures !AnySummary(rs) ==> s.None?
  {
    if AnySummary(rs) {
      var i :| 0 <= i < |rs| && rs[i].Summary?;
      assert init[i] == rs[i];
      var i' :| 0 <= i' < |init| && init[i'].Summary? && s == init[i'].summary
                && forall j :: i' < j < |init| ==> !init[j].Summary?;
      assert rs[i'] == init[i'];
      forall j | i' < j < |rs| ensures !rs[j].Summary? {
        if j < |init| {
          assert rs[j] == init[j];
        }
      }
    }
    if AnySummary(init) {
      var i :| 0 <= i < |init| && init[i].Summary?;
      assert rs[i] == init[i];
    }
  }

  /** A None in front leaves the first value as it was. */
  lemma FirstSomePastNone<T>(xs: seq<Option<T>>, r: Option<T>)
    requires |xs| > 0 && xs[0].None?
    requires r.Some? <==> exists i :: 0 <= i < |xs[1..]| && xs[1..][i].Some?
    requires r.Some? ==> exists i :: 0 <= i < |xs[1..]| && xs[1..][i] == r && forall j :: 0 <= j < i ==> xs[1..][j].None?
    ensures r.Some? <==> exists i :: 0 <= i < |xs| && xs[i].Some?
    ensures r.Some? ==> exists i :: 0 <= i < |xs| && xs[i] == r && forall j :: 0 <= j < i ==> xs[j].None?
  {
    if r.Some? {
      var i :| 0 <= i < |xs[1..]| && xs[1..][i] == r && forall j :: 0 <= j < i ==> xs[1..][j].None?;
      assert xs[i + 1] == r;
      forall j | 0 <= j < i + 1 ensures xs[j].None? {
        if j > 0 {
          assert xs[j] == xs[1..][j - 1];
        }
      }
    }
    if exists i :: 0 <= i < |xs| && xs[i].Some? {
      var i :| 0 <= i < |xs| && xs[i].Some?;
      assert xs[1..][i - 1] == xs[i];
    }
  }

  /** The `gitBranch` of each record, None for records that are not user/assistant. */
  function Branches(rs: seq<Record>): seq<Option<string>> {
    seq(|rs|, i requires 0 <= i < |rs| => if rs[i].Chat? then rs[i].gitBranch else None)
  }

  /** The `timestamp` of each record, None for records that are not user/assistant. */
  function Timestamps(rs: seq<Record>): seq<Option<string>> {
    seq(|rs|, i requires 0 <= i < |rs| => if rs[i].Chat? then rs[i].timestamp else None)
  }

  function FirstBranch(rs: seq<Record>): Option<string> {
    FirstSome(Branches(rs))
  }

  function FirstTimestamp(rs: seq<Record>): Option<string> {
    FirstSome(Timestamps(rs))
  }

  /** What the fold should hold after the records `rs`. */
  function Expected(rs: seq<Record>): Acc {
    if AnyRaises(rs) then Raised
    else Acc(ChatMessages(rs), LastSummary(rs), FirstBranch(rs), FirstTimestamp(rs))
  }

  lemma {:induction false} FoldAppend(acc: Acc, a: seq<Record>, b: seq<Record>)
    ensures Fold(acc, a + b) == Fold(Fold(acc, a), b)
    decreases |a|
  {
    if |a| == 0 {
      assert a + b == b;
    } else {
      assert (a + b)[1..] == a[1..] + b;
      FoldAppend(Step(acc, a[0]), a[1..], b);
    }
  }

  lemma {:induction false} FirstSomeSnoc<T>(xs: seq<Option<T>>, x: Option<T>)
    ensures FirstSome(xs + [x]) == if FirstSome(xs).Some? then FirstSome(xs) else x
    decreases |xs|
  {
    if |xs| == 0 {
      assert xs + [x] == [x];
      assert [x][1..] == [];
    } else {
      assert (xs + [x])[0] == xs[0];
      assert (xs + [x])[1..] == xs[1..] + [x];
      FirstSomeSnoc(xs[1..], x);
    }
  }

  /** A record sequence raises exactly when its front or its last record does. */
  lemma AnyRaisesSnoc(init: seq<Record>, r: Record)
    ensures AnyRaises(init + [r]) <==> AnyRaises(init) || Raises(r)
  {
    var rs := init + [r];
    if AnyRaises(rs) {
      var i :| 0 <= i < |rs| && Raises(rs[i]);
      if i < |init| {
        assert init[i] == rs[i];
      }
    }
    if AnyRaises(init) {
      var i :| 0 <= i < |init| && Raises(init[i]);
      assert rs[i] == init[i];
    }
    assert rs[|init|] == r;
  }

  lemma ColumnsSnoc(init: seq<Record>, r: Record)
    ensures Branches(init + [r]) == Branches(init) + [if r.Chat? then r.gitBranch else None]
    ensures Timestamps(init + [r]) == Timestamps(init) + [if r.Chat? then r.timestamp else None]
  {
  }

  /** One more record moves the expected state exactly as one fold step does. */
  lemma ExpectedSnoc(init: seq<Record>, r: Record)
    ensures Expected(init + [r]) == Step(Expected(init), r)
  {
    var rs := init + [r];
    AnyRaisesSnoc(init, r);
    if !AnyRaises(rs) {
      assert rs[..|rs| - 1] == init && rs[|rs| - 1] == r;
      assert ChatMessages(rs) == ChatMessages(init)
        + (if r.Chat? && r.message.MessageObject?
           then [ToMessage(r.role, r.uuid, r.parentUuid, r.timestamp, r.message.content)] else []);
      assert LastSummary(rs) == if r.Summary? then r.summary else LastSummary(init);
      ColumnsSnoc(init, r);
      FirstSomeSnoc(Branches(init), if r.Chat? then r.gitBranch else None);
      FirstSomeSnoc(Timestamps(init), if r.Chat? then r.timestamp else None);
    }
  }

  /** The fold computes `Expected` on every prefix of the file. */
  lemma {:induction false} FoldMeetsExpected(rs: seq<Record>)
    ensures Fold(Start, rs) == Expected(rs)
    decreases |rs|
  {
    if |rs| == 0 {
      assert Branches(rs) == [] && Timestamps(rs) == [];
    } else {
      var init := rs[..|rs| - 1];
      var r := rs[|rs| - 1];
      assert rs == init + [r];
      FoldMeetsExpected(init);
      FoldAppend(Start, init, [r]);
      assert [r][1..] == [];
      ExpectedSnoc(init, r);
    }
  }

  // ---------------------------------------------------------------------
  // The builder

  /** `parse_conversation_file` on already-decoded lines. It yields nothing
      when a record raises or when no user/assistant record is present;
      otherwise the messages are those records in file order, the summary
      is the value of the last summary record, the branch is the first
      non-null `gitBranch` and the timestamp the first non-null timestamp
      (or `''`) among user/assistant records. */
  function ParseConversationFile(f: SessionFile): (r: Option<Conversation>)
    ensures r.None? <==> AnyRaises(f.records) || |ChatMessages(f.records)| == 0
    ensures r.Some? ==> && r.value.messages == ChatMessages(f.records)
                        && r.value.summary == LastSummary(f.records)
                        && r.value.gitBranch == FirstBranch(f.records)
                        && r.value.timestamp == FirstTimestamp(f.records).GetOr("")
                        && r.value.sessionId == Stem(f.name)
                        && r.value.filePath == f.path
                        && r.value.projectPath == ProjectPath.DecodeProjectPath(f.directory)
  {
    var acc := Fold(Start, f.records);
    FoldMeetsExpected(f.records);
    if acc.Raised? || |acc.messages| == 0 then None
    else
      Some(Conversation(
        sessionId := Stem(f.name),
        filePath := f.path,
        summary := acc.summary,
        messages := acc.messages,
        projectPath := ProjectPath.DecodeProjectPath(f.directory),
        gitBranch := acc.gitBranch,
        timestamp := if acc.firstTimestamp.Some? then acc.firstTimestamp.value else ""))
  }

  /** A blank or undecodable line, or a record of another type, inserted
      anywhere in a file changes nothing: in particular it never costs the
      conversation any of its messages. */
  lemma IgnoredRecordChangesNothing(f: SessionFile, a: seq<Record>, b: seq<Record>, r: Record)
    requires r.Skipped? || r.OtherType?
    ensures ParseConversationFile(f.(records := a + [r] + b)) == ParseConversationFile(f.(records := a + b))
  {
    FoldAppend(Start, a + [r], b);
    FoldAppend(Start, a, [r]);
    FoldAppend(Start, a, b);
    assert Fold(Fold(Start, a), [r]) == Fold(Start, a);
  }
}

=== FILE: sorting.dfy ===
/** The two sorts the script relies on, as Python performs them.

    `list.sort(key=…)` (with or without `reverse=True`) is a stable sort: the
    result is ordered by the key and elements with equal keys keep their
    original relative order. It is modelled as insertion sort over a total
    preorder `le` ("may come before"), and stability is stated per
    equivalence class: the elements equivalent to any `v` appear in the
    output in exactly the order they had in the input.

    `sorted(set_of_strings)` is modelled by `SortedDistinct`. */
module Sorting {
  import Strings

  ghost predicate TotalPreorder<T(!new)>(le: (T, T) -> bool) {
    && (forall a, b :: le(a, b) || le(b, a))
    && (forall a, b, c :: le(a, b) && le(b, c) ==> le(a, c))
  }

  ghost predicate SortedBy<T>(s: seq<T>, le: (T, T) -> bool) {
    forall i, j :: 0 <= i < j < |s| ==> le(s[i], s[j])
  }

  predicate Equivalent<T>(a: T, b: T, le: (T, T) -> bool) {
    le(a, b) && le(b, a)
  }

  /** The elements of `s` equivalent to `v`, in their order in `s`. */
  function Peers<T>(s: seq<T>, v: T, le: (T, T) -> bool): seq<T> {
    if |s| == 0 then []
    else (if Equivalent(s[0], v, le) then [s[0]] else []) + Peers(s[1..], v, le)
  }

  lemma {:induction false} PeersAppend<T>(a: seq<T>, b: seq<T>, v: T, le: (T, T) -> bool)
    ensures Peers(a + b, v, le) == Peers(a, v, le) + Peers(b, v, le)
    decreases |a|
  {
    if |a| == 0 {
      assert a + b == b;
    } else {
      var c := a + b;
      assert c[0] == a[0] && c[1..] == a[1..] + b;
      PeersAppend(a[1..], b, v, le);
      var h := if Equivalent(a[0], v, le) then [a[0]] else [];
      assert Peers(c, v, le) == h + Peers(a[1..] + b, v, le);
      assert Peers(a, v, le) == h + Peers(a[1..], v, le);
    }
  }

  /** Places `x` after every element of `s` that may come before it. */
  function InsertBy<T>(x: T, s: seq<T>, le: (T, T) -> bool): seq<T> {
    if |s| == 0 then [x]
    else if le(s[0], x) then [s[0]] + InsertBy(x, s[1..], le)
    else [x] + s
  }

  lemma {:induction false} InsertByPermutes<T>(x: T, s: seq<T>, le: (T, T) -> bool)
    ensures multiset(InsertBy(x, s, le)) == multiset(s) + multiset{x}
    decreases |s|
  {
    if |s| > 0 {
      assert s == [s[0]] + s[1..];
      if le(s[0], x) {
        InsertByPermutes(x, s[1..], le);
      }
    }
  }

  lemma {:induction false} InsertBySorted<T(!new)>(x: T, s: seq<T>, le: (T, T) -> bool)
    requires TotalPreorder(le)
    requires SortedBy(s, le)
    ensures SortedBy(InsertBy(x, s, le), le)
    decreases |s|
  {
    var r := InsertBy(x, s, le);
    if |s| > 0 && le(s[0], x) {
      var t := InsertBy(x, s[1..], le);
      InsertBySorted(x, s[1..], le);
      InsertByPermutes(x, s[1..], le);
      assert r == [s[0]] + t;
      forall i, j | 0 <= i < j < |r| ensures le(r[i], r[j]) {
        assert r[j] == t[j - 1];
        if i == 0 {
          assert r[j] in multiset(t);
          if r[j] != x {
            assert r[j] in multiset(s[1..]);
            var k :| 0 <= k < |s[1..]| && s[1..][k] == r[j];
            assert s[k + 1] == r[j];
          }
        } else {
          assert r[i] == t[i - 1];
        }
      }
    } else if |s| > 0 {
      assert r == [x] + s;
      assert le(x, s[0]);
      forall i, j | 0 <= i < j < |r| ensures le(r[i], r[j]) {
        assert r[j] == s[j - 1];
        if i == 0 {
          assert le(s[0], s[j - 1]) || j == 1;
        } else {
          assert r[i] == s[i - 1];
        }
      }
    }
  }

  lemma {:induction false} InsertByKeepsPeers<T(!new)>(x: T, s: seq<T>, v: T, le: (T, T) -> bool)
    requires TotalPreorder(le)
    requires SortedBy(s, le)
    ensures Peers(InsertBy(x, s, le), v, le)
            == Peers(s, v, le) + (if Equivalent(x, v, le) then [x] else [])
    decreases |s|
  {
    var r := InsertBy(x, s, le);
    if |s| == 0 {
      assert r[1..] == [];
    } else if le(s[0], x) {
      var t := InsertBy(x, s[1..], le);
      InsertByKeepsPeers(x, s[1..], v, le);
      assert r[0] == s[0] && r[1..] == t;
      var head := if Equivalent(s[0], v, le) then [s[0]] else [];
      assert Peers(r, v, le) == head + Peers(t, v, le);
      assert Peers(s, v, le) == head + Peers(s[1..], v, le);
    } else {
      assert r == [x] + s;
      PeersAppend([x], s, v, le);
      assert [x][1..] == [];
      if Equivalent(x, v, le) {
        NoPeersAbove(x, s, v, le);
      }
    }
  }

  /** Nothing in a sorted `s` whose head strictly follows `x` is equivalent to `x`. */
  lemma {:induction false} NoPeersAbove<T(!new)>(x: T, s: seq<T>, v: T, le: (T, T) -> bool)
    requires TotalPreorder(le)
    requires SortedBy(s, le)
    requires |s| > 0 && !le(s[0], x)
    requires Equivalent(x, v, le)
    ensures Peers(s, v, le) == []
    decreases |s|
  {
    assert !Equivalent(s[0], v, le);
    if |s| > 1 {
      assert le(s[0], s[1]);
      NoPeersAbove(x, s[1..], v, le);
    }
  }

  /** Stable sort: sorted by `le`, a permutation of `s`, and each class of
      equivalent elements keeps its input order. */
  function SortBy<T(!new)>(s: seq<T>, le: (T, T) -> bool): (r: seq<T>)
    requires TotalPreorder(le)
    ensures SortedBy(r, le)
    ensures multiset(r) == multiset(s)
    ensures forall v :: Peers(r, v, le) == Peers(s, v, le)
    decreases |s|
  {
    if |s| == 0 then []
    else
      var init := s[..|s| - 1];
      var last := s[|s| - 1];
      assert s == init + [last];
      var sortedInit := SortBy(init, le);
      InsertLast(init, last, sortedInit, le);
      InsertBy(last, sortedInit, le)
  }

  /** One step of the sort: inserting the last element into a stable sort of
      the others gives a stable sort of the whole. */
  lemma InsertLast<T(!new)>(init: seq<T>, last: T, sortedInit: seq<T>, le: (T, T) -> bool)
    requires TotalPreorder(le)
    requires SortedBy(sortedInit, le)
    requires multiset(sortedInit) == multiset(init)
    requires forall v :: Peers(sortedInit, v, le) == Peers(init, v, le)
    ensures SortedBy(InsertBy(last, sortedInit, le), le)
    ensures multiset(InsertBy(last, sortedInit, le)) == multiset(init + [last])
    ensures forall v :: Peers(InsertBy(last, sortedInit, le), v, le) == Peers(init + [last], v, le)
  {
    InsertBySorted(last, sortedInit, le);
    InsertByPermutes(last, sortedInit, le);
    forall v ensures Peers(InsertBy(last, sortedInit, le), v, le) == Peers(init + [last], v, le) {
      InsertLastKeepsPeers(init, last, sortedInit, v, le);
    }
  }

  /** The class of `v` after inserting `last` is the class in `init`, followed
      by `last` when it belongs to it. */
  lemma InsertLastKeepsPeers<T(!new)>(init: seq<T>, last: T, sortedInit: seq<T>, v: T, le: (T, T) -> bool)
    requires TotalPreorder(le)
    requires SortedBy(sortedInit, le)
    requires Peers(sortedInit, v, le) == Peers(init, v, le)
    ensures Peers(InsertBy(last, sortedInit, le), v, le) == Peers(init + [last], v, le)
  {
    InsertByKeepsPeers(last, sortedInit, v, le);
    PeersAppend(init, [last], v, le);
    assert [last][1..] == [];
  }

  /** A prefix of a stable sort of `s`: a sorted sub-multiset of `s` whose
      classes of equivalent elements are prefixes of those of `s`, and which
      comes before everything of `s` it leaves out. */
  lemma SortedPrefix<T>(s: seq<T>, sorted: seq<T>, n: nat, le: (T, T) -> bool)
    requires SortedBy(sorted, le) && multiset(sorted) == multiset(s)
    requires forall v :: Peers(sorted, v, le) == Peers(s, v, le)
    requires n <= |sorted|
    ensures multiset(sorted[..n]) <= multiset(s)
    ensures SortedBy(sorted[..n], le)
    ensures forall v :: Peers(sorted[..n], v, le) <= Peers(s, v, le)
    ensures forall x :: x in s && x !in sorted[..n] ==> forall k :: 0 <= k < n ==> le(sorted[k], x)
  {
    var r, rest := sorted[..n], sorted[n..];
    assert multiset(r) <= multiset(s) by {
      assert sorted == r + rest;
      assert multiset(sorted) == multiset(r) + multiset(rest);
    }
    forall v ensures Peers(r, v, le) <= Peers(s, v, le) {
      assert sorted == r + rest;
      PeersAppend(r, rest, v, le);
    }
    PrefixPrecedesRest(s, sorted, n, le);
  }

  /** Everything a prefix of a sorted permutation of `s` leaves out follows the whole prefix. */
  lemma PrefixPrecedesRest<T>(s: seq<T>, sorted: seq<T>, n: nat, le: (T, T) -> bool)
    requires SortedBy(sorted, le) && multiset(sorted) == multiset(s)
    requires n <= |sorted|
    ensures forall x :: x in s && x !in sorted[..n] ==> forall k :: 0 <= k < n ==> le(sorted[k], x)
  {
    var r := sorted[..n];
    forall x | x in s && x !in r ensures forall k :: 0 <= k < n ==> le(sorted[k], x) {
      assert x in multiset(s);
      assert x in multiset(sorted);
      var i :| 0 <= i < |sorted| && sorted[i] == x;
      assert forall k :: 0 <= k < n ==> sorted[k] == r[k] && r[k] in r;
      assert n <= i;
    }
  }

  /** Strictly increasing in Python's string order, hence free of duplicates. */
  ghost predicate StrictlySorted(s: seq<string>) {
    forall i, j :: 0 <= i < j < |s| ==> Strings.Less(s[i], s[j])
  }

  /** Inserts `x` into a sorted `s` unless it is already there. */
  function InsertDistinct(x: string, s: seq<string>): seq<string>
    decreases |s|
  {
    if |s| == 0 then [x]
    else if x == s[0] then s
    else if Strings.Less(x, s[0]) then [x] + s
    else [s[0]] + InsertDistinct(x, s[1..])
  }

  lemma {:induction false} InsertDistinctProperties(x: string, s: seq<string>)
    requires StrictlySorted(s)
    ensures StrictlySorted(InsertDistinct(x, s))
    ensures forall y :: y in InsertDistinct(x, s) <==> y in s || y == x
    decreases |s|
  {
    if |s| > 0 && x != s[0] {
      if Strings.Less(x, s[0]) {
        forall j | 0 < j < |s| ensures Strings.Less(x, s[j]) {
          Strings.LessTransitive(x, s[0], s[j]);
        }
      } else {
        var tail := s[1..];
        var t := InsertDistinct(x, tail);
        InsertDistinctProperties(x, tail);
        Strings.LessTotal(x, s[0]);
        forall j | 0 <= j < |t| ensures Strings.Less(s[0], t[j]) {
          assert t[j] in t;
          if t[j] != x {
            var k :| 0 <= k < |tail| && tail[k] == t[j];
            assert s[k + 1] == t[j];
          }
        }
        ConsStrictlySorted(s[0], t);
        assert InsertDistinct(x, s) == [s[0]] + t;
        assert s == [s[0]] + tail;
      }
    }
  }

  /** A head below every element of a strictly sorted tail keeps it strictly sorted. */
  lemma ConsStrictlySorted(h: string, t: seq<string>)
    requires StrictlySorted(t)
    requires forall j :: 0 <= j < |t| ==> Strings.Less(h, t[j])
    ensures StrictlySorted([h] + t)
  {
    var r := [h] + t;
    forall i, j | 0 <= i < j < |r| ensures Strings.Less(r[i], r[j]) {
      assert r[j] == t[j - 1];
      if i > 0 {
        assert r[i] == t[i - 1];
      }
    }
  }

  /** `sorted(set(xs))`: the distinct elements of `xs` in increasing string order. */
  function SortedDistinct(xs: seq<string>): (r: seq<string>)
    ensures StrictlySorted(r)
    ensures forall y :: y in r <==> y in xs
    decreases |xs|
  {
    if |xs| == 0 then []
    else
      var init := SortedDistinct(xs[..|xs| - 1]);
      InsertDistinctProperties(xs[|xs| - 1], init);
      assert xs == xs[..|xs| - 1] + [xs[|xs| - 1]];
      InsertDistinct(xs[|xs| - 1], init)
  }

  /** `sorted(set(xs))[:n]`: the `n` smallest distinct elements of `xs`, in
      increasing order; whatever is left out is larger than all of them. */
  function SmallestDistinct(xs: seq<string>, n: nat): (r: seq<string>)
    ensures |r| <= n
    ensures StrictlySorted(r)
    ensures forall y :: y in r ==> y in xs
    ensures forall y :: y in xs && y !in r ==> |r| == n && forall k :: 0 <= k < |r| ==> Strings.Less(r[k], y)
  {
    var all := SortedDistinct(xs);
    SortedHeadOutranks(all, n);
    if n < |all| then all[..n] else all
  }

  /** Of a strictly sorted sequence, the first `n` elements are all smaller
      than every element left out. */
  lemma SortedHeadOutranks(all: seq<string>, n: nat)
    requires StrictlySorted(all)
    ensures var r := if n < |all| then all[..n] else all;
            && (forall y :: y in r ==> y in all)
            && forall y :: y in all && y !in r ==> |r| == n && forall k :: 0 <= k < |r| ==> Strings.Less(r[k], y)
  {
    var r := if n < |all| then all[..n] else all;
    forall y | y in all && y !in r
      ensures |r| == n && forall k :: 0 <= k < |r| ==> Strings.Less(r[k], y)
    {
      var i :| 0 <= i < |all| && all[i] == y;
      assert i >= |r| && n < |all|;
      forall k | 0 <= k < |r| ensures Strings.Less(r[k], y) {
        assert r[k] == all[k];
      }
    }
    assert forall y :: y in r ==> y in all;
  }

  /** Python's `s[:n]` for any integer `n`: a negative `n` counts from the end. */
  function TakePrefix<T>(s: seq<T>, n: int): (r: seq<T>)
    ensures 0 <= n ==> |r| == (if n < |s| then n else |s|)
    ensures n < 0 ==> |r| == (if |s| + n < 0 then 0 else |s| + n)
    ensures r == s[..|r|]
  {
    if n >= 0 then (if n < |s| then s[..n] else s)
    else (if |s| + n < 0 then [] else s[..|s| + n])
  }
}

=== FILE: strings.dfy ===
/** Text helpers shared by the model: the few `str` methods the script uses
    (`startswith`, `replace` of one character, `strip`, `lower`, `'\n'.join`,
    slicing with an ellipsis) and the ordering Python uses to compare strings.
    Character classes are restricted to ASCII. */
module Strings {

  function Min(a: int, b: int): int {
    if a < b then a else b
  }

  predicate StartsWith(s: string, prefix: string) {
    |prefix| <= |s| && s[..|prefix|] == prefix
  }

  /** `sub in s` for strings. */
  predicate Contains(s: string, sub: string) {
    exists i :: 0 <= i <= |s| - |sub| && OccursAt(s, sub, i)
  }

  predicate OccursAt(s: string, sub: string, i: int)
    requires 0 <= i <= |s| - |sub|
  {
    s[i..i + |sub|] == sub
  }

  /** `s.replace(from, to)` for single characters. */
  function ReplaceChar(s: string, from: char, to: char): string {
    seq(|s|, i requires 0 <= i < |s| => if s[i] == from then to else s[i])
  }

  /** `s.split(c)[0]`: everything before the first `c`, or all of `s`. */
  function BeforeFirst(s: string, c: char): (r: string)
    ensures StartsWith(s, r)
    ensures c !in r
    ensures r != s ==> |r| < |s| && s[|r|] == c
  {
    if |s| == 0 then ""
    else if s[0] == c then ""
    else [s[0]] + BeforeFirst(s[1..], c)
  }

  /** The text after the last `c` of `s`, or all of `s` when `c` does not occur. */
  function AfterLast(s: string, c: char): (r: string)
    ensures c !in r
    ensures |r| <= |s| && r == s[|s| - |r|..]
    ensures r != s ==> s[|s| - |r| - 1] == c
  {
    if |s| == 0 then ""
    else if s[|s| - 1] == c then ""
    else AfterLast(s[..|s| - 1], c) + [s[|s| - 1]]
  }

  /** Index of the first `c` in `s`. */
  function IndexOf(s: string, c: char): (i: nat)
    requires c in s
    ensures i < |s| && s[i] == c && c !in s[..i]
  {
    if s[0] == c then 0 else 1 + IndexOf(s[1..], c)
  }

  /** ASCII `str.lower()`: upper-case letters become lower-case, nothing else changes. */
  function Lower(s: string): string {
    seq(|s|, i requires 0 <= i < |s| => LowerChar(s[i]))
  }

  function LowerChar(c: char): char {
    if 'A' <= c <= 'Z' then (c as int + 32) as char else c
  }

  predicate IsUpper(c: char) {
    'A' <= c <= 'Z'
  }

  /** The ASCII characters `str.isspace()` accepts, which `str.strip()` removes. */
  predicate IsSpace(c: char) {
    c == ' ' || ('\t' <= c <= '\r') || ('\U{1C}' <= c <= '\U{1F}')
  }

  function TrimStart(s: string): (r: string)
    ensures |r| <= |s| && r == s[|s| - |r|..]
    ensures forall i :: 0 <= i < |s| - |r| ==> IsSpace(s[i])
    ensures |r| == 0 || !IsSpace(r[0])
  {
    if |s| > 0 && IsSpace(s[0]) then TrimStart(s[1..]) else s
  }

  function TrimEnd(s: string): (r: string)
    ensures StartsWith(s, r)
    ensures forall i :: |r| <= i < |s| ==> IsSpace(s[i])
    ensures |r| == 0 || !IsSpace(r[|r| - 1])
  {
    if |s| > 0 && IsSpace(s[|s| - 1]) then TrimEnd(s[..|s| - 1]) else s
  }

  /** `r` is the piece of `s` starting at `i` with only white space before and after it. */
  predicate StrippedAt(s: string, r: string, i: int) {
    && 0 <= i <= |s| - |r|
    && r == s[i..i + |r|]
    && (forall k :: 0 <= k < i ==> IsSpace(s[k]))
    && (forall k :: i + |r| <= k < |s| ==> IsSpace(s[k]))
  }

  /** `s.strip()`: a contiguous piece of `s` that neither starts nor ends with white space. */
  function Strip(s: string): (r: string)
    ensures |r| <= |s|
    ensures |r| == 0 || (!IsSpace(r[0]) && !IsSpace(r[|r| - 1]))
    ensures exists i :: StrippedAt(s, r, i)
  {
    var t := TrimStart(s);
    var r := TrimEnd(t);
    StripLocated(s, t, r);
    r
  }

  /** A suffix `t` of `s` after white space, cut down to a prefix `r` before
      white space, is a piece of `s` placed right after that white space. */
  lemma StripLocated(s: string, t: string, r: string)
    requires |t| <= |s| && t == s[|s| - |t|..]
    requires forall k :: 0 <= k < |s| - |t| ==> IsSpace(s[k])
    requires StartsWith(t, r)
    requires forall k :: |r| <= k < |t| ==> IsSpace(t[k])
    ensures StrippedAt(s, r, |s| - |t|)
  {
    var i := |s| - |t|;
    assert t == s[i..];
    assert r == t[..|r|];
    assert t[..|r|] == s[i..i + |r|];
    forall k | i + |r| <= k < |s| ensures IsSpace(s[k]) {
      assert s[k] == t[k - i];
    }
  }

  /** `s[:n] + '...'` when `s` is longer than `n`, else `s`: the excerpt shape the script prints. */
  function Shorten(s: string, n: nat): (r: string)
    ensures |r| <= n + 3
    ensures StartsWith(r, s[..Min(|s|, n)])
    ensures |s| <= n ==> r == s
  {
    if |s| > n then s[..n] + "..." else s
  }

  /** `'\n'.join(pieces)`. */
  function JoinLines(pieces: seq<string>): string {
    if |pieces| == 0 then ""
    else if |pieces| == 1 then pieces[0]
    else pieces[0] + "\n" + JoinLines(pieces[1..])
  }

  /** `s.split('\n')`: never empty; the pieces contain no newline. */
  function SplitLines(s: string): (r: seq<string>)
    ensures |r| >= 1
    ensures forall k :: 0 <= k < |r| ==> '\n' !in r[k]
    decreases |s|
  {
    if '\n' !in s then [s]
    else
      var i := IndexOf(s, '\n');
      [s[..i]] + SplitLines(s[i + 1..])
  }

  /** Joining the pieces of a split gives the text back. */
  lemma {:induction false} JoinSplitLines(s: string)
    ensures JoinLines(SplitLines(s)) == s
    decreases |s|
  {
    if '\n' in s {
      var i := IndexOf(s, '\n');
      var rest := SplitLines(s[i + 1..]);
      JoinSplitLines(s[i + 1..]);
      assert SplitLines(s) == [s[..i]] + rest;
      assert ([s[..i]] + rest)[1..] == rest;
      assert s == s[..i] + "\n" + s[i + 1..];
    }
  }

  /** Splitting a join of newline-free pieces recovers the pieces: no piece is lost,
      merged or reordered by the join. */
  lemma {:induction false} SplitJoinLines(pieces: seq<string>)
    requires |pieces| >= 1
    requires forall k :: 0 <= k < |pieces| ==> '\n' !in pieces[k]
    ensures SplitLines(JoinLines(pieces)) == pieces
    decreases |pieces|
  {
    if |pieces| > 1 {
      var p := pieces[0];
      var tail := JoinLines(pieces[1..]);
      var s := p + "\n" + tail;
      assert s[|p|] == '\n';
      assert s[..|p|] == p;
      var i := IndexOf(s, '\n');
      assert i == |p|;
      assert s[i + 1..] == tail;
      SplitJoinLines(pieces[1..]);
      assert pieces == [p] + pieces[1..];
    }
  }

  /** Python's `<` on strings: lexicographic by code point, a proper prefix first. */
  predicate Less(a: string, b: string)
    decreases |a|
  {
    if |a| == 0 then |b| > 0
    else if |b| == 0 then false
    else if a[0] != b[0] then a[0] < b[0]
    else Less(a[1..], b[1..])
  }

  lemma {:induction false} LessIrreflexive(a: string)
    ensures !Less(a, a)
    decreases |a|
  {
    if |a| > 0 {
      LessIrreflexive(a[1..]);
    }
  }

  lemma {:induction false} LessTransitive(a: string, b: string, c: string)
    requires Less(a, b) && Less(b, c)
    ensures Less(a, c)
    decreases |a|
  {
    if |a| > 0 && a[0] == b[0] && b[0] == c[0] {
      LessTransitive(a[1..], b[1..], c[1..]);
    }
  }

  lemma {:induction false} LessTotal(a: string, b: string)
    ensures a == b || Less(a, b) || Less(b, a)
    decreases |a|
  {
    if |a| > 0 && |b| > 0 && a[0] == b[0] {
      LessTotal(a[1..], b[1..]);
      if a[1..] == b[1..] {
        assert a == [a[0]] + a[1..] && b == [b[0]] + b[1..];
      }
    }
  }

  lemma LessAsymmetric(a: string, b: string)
    requires Less(a, b)
    ensures !Less(b, a)
  {
    if Less(b, a) {
      LessTransitive(a, b, a);
      LessIrreflexive(a);
    }
  }
}

=== FILE: tokenizer.dfy ===
/** The tokenizer (search_history.py lines 283-285): `set(re.findall(r'\b\w+\b',
    text.lower()))`. A token is a maximal run of word characters (ASCII letters,
    digits and `_`) of the lower-cased text. */
module Tokenizer {
  import opened Strings

  predicate IsWordChar(c: char) {
    ('a' <= c <= 'z') || ('A' <= c <= 'Z') || ('0' <= c <= '9') || c == '_'
  }

  /** The length of the run of word characters at the start of `s`. */
  function RunLength(s: string): (n: nat)
    ensures n <= |s|
    ensures forall k :: 0 <= k < n ==> IsWordChar(s[k])
    ensures n == |s| || !IsWordChar(s[n])
    decreases |s|
  {
    if |s| > 0 && IsWordChar(s[0]) then 1 + RunLength(s[1..]) else 0
  }

  /** `re.findall(r'\b\w+\b', s)`: the word runs of `s`, left to right. */
  function Words(s: string): seq<string>
    decreases |s|
  {
    if |s| == 0 then []
    else if !IsWordChar(s[0]) then Words(s[1..])
    else
      var n := RunLength(s);
      [s[..n]] + Words(s[n..])
  }

  /** `s[i..j]` is a maximal run of word characters of `s`. */
  predicate IsRun(s: string, i: int, j: int) {
    && 0 <= i < j <= |s|
    && (forall k :: i <= k < j ==> IsWordChar(s[k]))
    && (i == 0 || !IsWordChar(s[i - 1]))
    && (j == |s| || !IsWordChar(s[j]))
  }

  /** A run of a suffix `s[d..]` is a run of `s`, moved by `d`, unless it
      starts the suffix right after a word character. */
  lemma RunOfSuffix(s: string, d: nat, i: int, j: int)
    requires d <= |s|
    requires IsRun(s[d..], i, j)
    requires i > 0 || d == 0 || !IsWordChar(s[d - 1])
    ensures IsRun(s, i + d, j + d)
    ensures s[i + d..j + d] == s[d..][i..j]
  {
    var t := s[d..];
    forall k | i + d <= k < j + d ensures IsWordChar(s[k]) {
      assert s[k] == t[k - d];
    }
    if i > 0 {
      assert s[i + d - 1] == t[i - 1];
    }
    if j + d < |s| {
      assert s[j + d] == t[j];
    }
  }

  /** A run of `s` lying at or after `d`, not starting exactly at `d` unless
      `s[d - 1]` is no word character, is a run of the suffix `s[d..]`. */
  lemma RunInSuffix(s: string, d: nat, i: int, j: int)
    requires d <= i
    requires IsRun(s, i, j)
    ensures IsRun(s[d..], i - d, j - d)
    ensures s[d..][i - d..j - d] == s[i..j]
  {
    var t := s[d..];
    forall k | i - d <= k < j - d ensures IsWordChar(t[k]) {
      assert t[k] == s[k + d];
    }
    if i - d > 0 {
      assert t[i - d - 1] == s[i - 1];
    }
    if j - d < |t| {
      assert t[j - d] == s[j];
    }
  }

  /** Every word found is a maximal run of the text. */
  lemma {:induction false} WordsAreRuns(s: string, w: string)
    requires w in Words(s)
    ensures exists i, j :: IsRun(s, i, j) && s[i..j] == w
    decreases |s|
  {
    if !IsWordChar(s[0]) {
      assert w in Words(s[1..]);
      WordsAreRuns(s[1..], w);
      var i, j :| IsRun(s[1..], i, j) && s[1..][i..j] == w;
      RunOfSuffix(s, 1, i, j);
    } else {
      var n := RunLength(s);
      assert Words(s) == [s[..n]] + Words(s[n..]);
      if w == s[..n] {
        assert IsRun(s, 0, n);
        assert s[0..n] == w;
      } else {
        assert w in Words(s[n..]);
        WordsAreRuns(s[n..], w);
        var i, j :| IsRun(s[n..], i, j) && s[n..][i..j] == w;
        assert i > 0 by {
          if i == 0 {
            assert s[n..][0] == s[n];
          }
        }
        RunOfSuffix(s, n, i, j);
      }
    }
  }

  /** Every maximal run of the text is found. */
  lemma {:induction false} RunsAreWords(s: string, i: int, j: int)
    requires IsRun(s, i, j)
    ensures s[i..j] in Words(s)
    decreases |s|
  {
    var d := if IsWordChar(s[0]) then RunLength(s) else 1;
    if i == 0 {
      FirstRunIsWord(s, j);
    } else {
      SuffixWordsAreWords(s, i, j, d);
      RunsAreWords(s[d..], i - d, j - d);
    }
  }

  /** A run starting the text is its first word. */
  lemma FirstRunIsWord(s: string, j: int)
    requires IsRun(s, 0, j)
    ensures s[..j] in Words(s)
  {
    var n := RunLength(s);
    assert Words(s) == [s[..n]] + Words(s[n..]);
    assert j == n;
  }

  /** A later run is a run of the text left after the first character, when
      that is no word character, or after the first word; and a word of that
      suffix is a word of the text. */
  lemma SuffixWordsAreWords(s: string, i: int, j: int, d: int)
    requires IsRun(s, i, j) && i > 0
    requires d == if IsWordChar(s[0]) then RunLength(s) else 1
    ensures 0 < d <= i && IsRun(s[d..], i - d, j - d)
    ensures s[d..][i - d..j - d] in Words(s[d..]) ==> s[i..j] in Words(s)
  {
    if IsWordChar(s[0]) {
      assert Words(s) == [s[..d]] + Words(s[d..]);
      assert i > d;
    }
    RunInSuffix(s, d, i, j);
  }

  lemma LowerHasNoUpper(s: string)
    ensures forall k :: 0 <= k < |Lower(s)| ==> !IsUpper(Lower(s)[k])
  {
  }

  function Tokenize(text: string): (r: set<string>)
    ensures text == "" ==> r == {}
    ensures forall w :: w in r ==> |w| > 0 && forall k :: 0 <= k < |w| ==> IsWordChar(w[k]) && !IsUpper(w[k])
  {
    TokensAreLowerWords(text);
    set w | w in Words(Lower(text))
  }

  lemma TokensAreLowerWords(text: string)
    ensures forall w :: w in Words(Lower(text)) ==>
              |w| > 0 && forall k :: 0 <= k < |w| ==> IsWordChar(w[k]) && !IsUpper(w[k])
  {
    var l := Lower(text);
    forall w | w in Words(l)
      ensures |w| > 0 && forall k :: 0 <= k < |w| ==> IsWordChar(w[k]) && !IsUpper(w[k])
    {
      WordsAreRuns(l, w);
      var i, j :| IsRun(l, i, j) && l[i..j] == w;
      LowerHasNoUpper(text);
      assert forall k :: 0 <= k < |w| ==> w[k] == l[i + k];
    }
  }

  /** The tokens of a text are exactly the maximal word runs of its
      lower-cased form, with no other string admitted. */
  lemma TokenizeIsMaximalRuns(text: string, w: string)
    ensures w in Tokenize(text) <==> exists i, j :: IsRun(Lower(text), i, j) && Lower(text)[i..j] == w
  {
    var l := Lower(text);
    if w in Tokenize(text) {
      WordsAreRuns(l, w);
    }
    if exists i, j :: IsRun(l, i, j) && l[i..j] == w {
      var i, j :| IsRun(l, i, j) && l[i..j] == w;
      RunsAreWords(l, i, j);
    }
  }
}

=== FILE: wrappers.dfy ===
/** Option and Result, the two failure-carrying shapes the model needs:
    Option for Python's `None`-or-value, Result for an error the source reports
    (and exits on) instead of returning a value. */
module Wrappers {

  datatype Option<+T> = None | Some(value: T) {

    /** Returns the value in Some, or `default` for None. */
    function GetOr(default: T): T {
      match this
      case Some(v) => v
      case None => default
    }
  }

  datatype Result<+R, +E> = Success(value: R) | Failure(error: E)

  /** The values `f` yields over `xs`, in order, skipping None. */
  function FilterMap<A, B>(xs: seq<A>, f: A -> Option<B>): seq<B> {
    if |xs| == 0 then []
    else (match f(xs[0]) case Some(y) => [y] case None => []) + FilterMap(xs[1..], f)
  }

  /** The first position at or after `from` whose element satisfies `p`, if any. */
  function FirstWhere<A>(xs: seq<A>, p: A -> bool, from: nat): (r: Option<nat>)
    requires from <= |xs|
    ensures r.None? <==> forall i :: from <= i < |xs| ==> !p(xs[i])
    ensures r.Some? ==> from <= r.value < |xs| && p(xs[r.value])
                        && forall j :: from <= j < r.value ==> !p(xs[j])
    decreases |xs| - from
  {
    if from == |xs| then None
    else if p(xs[from]) then Some(from)
    else FirstWhere(xs, p, from + 1)
  }

  /** A value is kept exactly when `f` yields it for some element. */
  lemma {:induction false} FilterMapMembers<A, B>(xs: seq<A>, f: A -> Option<B>, y: B)
    ensures y in FilterMap(xs, f) <==> exists x :: x in xs && f(x) == Some(y)
    decreases |xs|
  {
    if |xs| > 0 {
      var head: seq<B> := match f(xs[0]) case Some(z) => [z] case None => [];
      assert FilterMap(xs, f) == head + FilterMap(xs[1..], f);
      FilterMapMembers(xs[1..], f, y);
      if exists x :: x in xs && f(x) == Some(y) {
        var x :| x in xs && f(x) == Some(y);
        if x != xs[0] {
          var i :| 0 <= i < |xs| && xs[i] == x;
          assert xs[1..][i - 1] == x;
        }
      }
      if y in FilterMap(xs[1..], f) {
        var x :| x in xs[1..] && f(x) == Some(y);
        assert x in xs;
      }
    }
  }
}
